=== FILE: README.md ===
# LiteToDoBot in Dafny

A model of LiteToDoBot, a Telegram bot that keeps a per-user to-do list in a
SQLite table. `/start` and `/help` go to `send_welcome`, whose handler is
registered first. The other registered commands, and edited `/edit`,
`/complete` and `/note` messages, go to `handle_all_commands`, which trims
the text and picks a handler by the first command word the text starts
with: `/add`, `/edit`, `/list_done`, `/list_all`, `/list`, `/complete`,
`/note`, `/help` (its `/help` branch is reached only when the function is
applied to such a text directly). Each handler reads its arguments with
`str.split` and `int`. The listing handlers and the add handler run one
query or insert against the `todos` table on behalf of the sender; the
edit, note and complete handlers first look the task up with a SELECT and
then update it. Each replies with task cards (`TodoItem.display`) or a
fixed message.

Modules, one per file:

- `Wrappers` (`wrappers.dfy`): `Option` and `Result`.
- `Text` (`text.dfy`): Python's `str.isspace`, `strip`, `split(maxsplit=…)`
  and `startswith`, on `seq<char>`.
- `PyInt` (`pyint.dfy`): `int(str)` in base 10 and `str(int)`.
- `Elapsed` (`elapsed.dfy`): `time_since_creation`, the days / hours /
  minutes split of a `timedelta`.
- `Todo` (`todo.dfy`): the `TodoItem` record, `is_completed`, and `display`
  as a structured `Card` (number, text, creation time, status, completion
  time or elapsed time, note).
- `TaskStore` (`store.dfy`): the `todos` table as a sequence of rows in
  insertion order plus the AUTOINCREMENT counter, and the `Database` methods
  over it.
- `Handlers` (`handlers.dfy`): the command handlers, each a function from
  the table, the sender, the text and the clock reading to the new table and
  the reply, or to the store error it does not catch.
- `Dispatch` (`dispatch.dfy`): `handle_all_commands`, its catch-all, and the
  properties of whole messages and message sequences.

The clock is a parameter (`now`, whole seconds). Timestamps are modelled as
these integers instead of `%Y-%m-%d %H:%M:%S` strings.

The model is `handle_all_commands` applied to a message's text; which
messages telebot passes to it is not modelled (see "Left out"). Three
behaviours of the code worth knowing:

- The "already completed" check is made by the `complete_task` handler;
  `complete_todo` itself sets status 1 and re-stamps the completion time of
  any row it is given (`TaskStore.CompleteTodoRestamps`).
- `handle_all_commands` matches command words with `startswith`, so applied
  to `/listing` it lists open tasks, and applied to `/addendum x` it runs
  the add handler, which takes everything after the first word as the task
  text (`Dispatch.RoutePrecedence`). telebot's command filter keeps such
  texts from reaching it in the running bot.
- A task number that `int` accepts but that does not fit a signed 64-bit
  integer cannot be bound by `sqlite3`; the `OverflowError` is not among the
  exceptions the handlers catch, so the reply is the catch-all
  "something wrong." (`Dispatch.EditOfUnownedTask`).

## Model

| member | source | states |
|---|---|---|
| Text.Split | lite_todo_bot.py:251 | the shape of `split(maxsplit=k)`: non-empty parts that start with a non-space character, at most k+1 of them, and none exactly when the text is blank (what the parts are is stated by the lemmas below) |
| Text.SplitSeparatedWords | lite_todo_bot.py:322 | without a limit, `split()` returns the words of a text whatever whitespace runs separate them, precede the first or follow the last |
| Text.SplitWordThenSpace | lite_todo_bot.py:251 | a word followed by a whitespace run of any kind and length is the first part, and the text after the run is split for the rest with one cut fewer |
| Text.SplitRemainder | lite_todo_bot.py:253 | once the cuts are used up the rest of the text, its leading whitespace removed, is the last part |
| Text.SplitTwoWordsAndRest | lite_todo_bot.py:251-253 | `split(maxsplit=2)` of two words and a rest, separated by any whitespace runs, gives the two words and the rest |
| Text.SplitPartsAreWords | lite_todo_bot.py:322 | without a limit, and for every part but the last with one, the parts of `split` hold no whitespace |
| Text.SplitJoinWords | lite_todo_bot.py:322 | splitting words joined by single spaces gives the words back |
| Text.Strip | lite_todo_bot.py:343 | `strip()` keeps an infix of the text with only whitespace before and after it, starting and ending with non-whitespace, and leaves a text that already does unchanged |
| Text.StripSurrounding | lite_todo_bot.py:343 | whitespace runs around a text that starts and ends with a visible character are exactly what `strip()` removes |
| Text.StripSkipsLeadingSpace | lite_todo_bot.py:343 | whitespace in front of a text never changes what `strip()` keeps |
| Text.StripKeepsPrefix | lite_todo_bot.py:343 | stripping keeps a command word the text starts with |
| PyInt.ParseIntToString | lite_todo_bot.py:252 | the number shown on a card (a positive id below 2^63) reads back through `int` as that number; the model states this for every integer |
| PyInt.ParseIntSurrounded | lite_todo_bot.py:252 | a number with whitespace that `int` skips (ASCII 9-13 and 32, and non-ASCII whitespace) around it reads back as that number |
| PyInt.ParseInt | lite_todo_bot.py:252 | `int` accepts a text exactly when it holds none of the information separators U+001C..U+001F and its stripped form is a digit group (digits, single underscores between digits), optionally after one `+` or `-`; the value is the group's digits, negated after `-`; the stripped form of an accepted text ends in a digit |
| PyInt.ParseStripped | lite_todo_bot.py:252 | once surrounding whitespace is skipped, `int` accepts exactly a digit group, optionally after one `+` or `-`, and reads the group's digits, negated after `-` |
| PyInt.ParseIntAccepts | lite_todo_bot.py:252 | `+5`, `007` and `1_000` read as 5, 7 and 1000 |
| PyInt.ParseIntRefuses | lite_todo_bot.py:252 | `1a1`, `1__0`, `5-`, `_1`, `-`, and `5` with U+001C before or U+001F after it are refused, so the handler replies with its usage hint |
| Elapsed.TimeSinceCreation | lite_todo_bot.py:53-58 | hours lie in 0..23, minutes in 0..59, the split falls short of the elapsed seconds by less than a minute, and it is non-negative in days for a past creation time |
| Elapsed.TimeSinceCreationIsUnique | lite_todo_bot.py:53-58 | any split with hours below 24 and minutes below 60 that falls short of the difference by less than a minute is the one computed |
| Elapsed.DaysHoursMinutes | lite_todo_bot.py:55-57 | d days and s further seconds show as d days, s div 3600 hours and (s mod 3600) div 60 minutes |
| Elapsed.OneDayTwoHoursThreeMinutes | lite_todo_bot.py:53-58 | 1 day 2 hours 3 minutes 10 seconds shows as 1 / 2 / 3, the seconds dropped |
| Todo.NewItem | lite_todo_bot.py:19-44 | a new item carries the sender's id, name and chat, the text, status open, an empty note and both timestamps at now |
| Todo.Display | lite_todo_bot.py:60-75 | a card shows the number, text and creation time; it is marked completed exactly when the status is 1; it shows the completion time exactly then and the elapsed time otherwise; it has a note line exactly when the note is non-empty |
| TaskStore.EmptyStore | lite_todo_bot.py:86-98 | the fresh table is empty and satisfies the table invariant |
| TaskStore.AddTodo | lite_todo_bot.py:102-115 | insertion fails exactly when the AUTOINCREMENT counter is exhausted; otherwise the row is appended under an id above every earlier one, with status 0, empty note, no completion time and the item's owner, chat, text and timestamps, and the table invariant is kept |
| TaskStore.GetTodosByStatus | lite_todo_bot.py:117-136 | the result holds exactly the user's rows with the given status (all of them with none), highest id first |
| TaskStore.GetTodosByTaskId | lite_todo_bot.py:138-157 | the result holds exactly the user's rows with the id, at most one of them; an id outside 64 bits raises |
| TaskStore.ListAllIsOrderedUnion | lite_todo_bot.py:124-129 | the unfiltered listing is the union of the status-0 and status-1 listings, in the only descending order |
| TaskStore.CompleteTodo | lite_todo_bot.py:159-172 | the user's row with the id gets status 1 and completion and update time now; no other field and no other row changes |
| TaskStore.CompleteTodoRestamps | lite_todo_bot.py:159-172 | completing an already completed row re-stamps its completion time |
| TaskStore.UpdateTaskNotes | lite_todo_bot.py:174-183 | only the note and update time of the user's row with the id change |
| TaskStore.EditTodo | lite_todo_bot.py:185-194 | only the text and update time of the user's row with the id change |
| TaskStore.EditAndNoteCommute | lite_todo_bot.py:174-194 | editing the text and setting the note touch disjoint fields and so commute |
| TaskStore.AddKeepsChronology | lite_todo_bot.py:102-115 | an insert at a clock reading no earlier than the last keeps every timestamp in order |
| Handlers.AddArgs | lite_todo_bot.py:307 | the task text is the second part of `split(maxsplit=1)`, which starts with a non-space character; there is none (the `IndexError` that gives the usage hint) exactly when the split has fewer than two parts |
| Handlers.IdTextArgs | lite_todo_bot.py:251-253 | the task number is `int(parts[1])` and the text is `parts[2]` of `split(maxsplit=2)`; nothing is read (the `IndexError` or `ValueError` that gives the usage hint) exactly when there are fewer than three parts or `int` refuses the second; the same lines recur at 277-279 |
| Handlers.IdArg | lite_todo_bot.py:322 | the task number is `int` of the second word of `split()`; nothing is read exactly when there is no second word or `int` refuses it |
| Handlers.AddArgsOfCommandLine | lite_todo_bot.py:307 | whatever whitespace follows the command word, the add handler reads the rest of the line as the task text |
| Handlers.IdTextArgsOfCommandLine | lite_todo_bot.py:251-253 | `/edit N text` and `/note N text` read back N and the text, whatever whitespace runs separate them |
| Handlers.IdArgOfCommandLine | lite_todo_bot.py:322 | `/complete N` reads back N, whatever whitespace precedes it and whatever words follow |
| Handlers.MissingArgument | lite_todo_bot.py:307 | a command word alone lacks its argument for every handler |
| Handlers.FindOwned | lite_todo_bot.py:323-324 | the lookup finds a row exactly when the sender owns a task with that number, and raises for numbers outside 64 bits |
| Handlers.AddTask | lite_todo_bot.py:296-312 | `/add` without text gets the usage hint with the table unchanged; with text it appends one open row of the sender with a fresh id and shows it, or raises when ids run out |
| Handlers.EditById | lite_todo_bot.py:270-293 | an unowned number gets the invalid-id reply with the table unchanged; an owned one has its text replaced, the card showing task `id` with the new text and the reply the old one |
| Handlers.NoteById | lite_todo_bot.py:244-267 | an unowned number gets the invalid-id reply with the table unchanged; an owned one has its note replaced, the card showing task `id` with the new note and the reply reporting the old note |
| Handlers.CompleteById | lite_todo_bot.py:315-338 | an owned task already completed gets its own reply and the table is unchanged; an open one is completed now; an unowned number gets the invalid-id reply |
| Handlers.EditTask | lite_todo_bot.py:270-293 | malformed `/edit` arguments get the edit usage hint with the table unchanged |
| Handlers.NoteTask | lite_todo_bot.py:244-267 | malformed `/note` arguments get the note usage hint with the table unchanged |
| Handlers.CompleteTask | lite_todo_bot.py:315-338 | a missing or non-integer `/complete` number gets the complete usage hint with the table unchanged |
| Handlers.ListTasks | lite_todo_bot.py:200-241 | a listing reply is the "nothing here" one exactly when the sender has no task in that listing, and otherwise carries the listing's cards |
| Handlers.ListingShowsEveryRow | lite_todo_bot.py:200-241 | every task of the sender that belongs to a listing has its card in it |
| Handlers.ListingShowsOnlyListedRows | lite_todo_bot.py:200-241 | every card of a listing shows a task of the sender that belongs to it |
| Handlers.ListingIsDescending | lite_todo_bot.py:200-241 | a listing shows strictly decreasing task numbers (`ORDER BY id DESC`) |
| Handlers.ListingEmpty | lite_todo_bot.py:200-241 | a listing has no cards exactly when the sender has no task in it |
| Handlers.ListingsPartition | lite_todo_bot.py:200-241 | each of the sender's tasks is in the all-tasks listing and in exactly one of the open and done listings, as its status says |
| Dispatch.RouteOf | lite_todo_bot.py:343-369 | the route is that of the first command word in test order the trimmed text starts with, and unknown exactly when it starts with none |
| Dispatch.RouteIsLongestCommand | lite_todo_bot.py:343-367 | the route is that of the longest command word the text starts with, so `/list_done` and `/list_all` are never taken for `/list` |
| Dispatch.RoutePrecedence | lite_todo_bot.py:343-367 | concrete texts route as the prefix tests say, including `/listing` and `/addendum` |
| Dispatch.RouteOfCommandWord | lite_todo_bot.py:343-367 | a text starting with a command word other than `/list` goes to that word's handler |
| Dispatch.LeadingSpaceIgnored | lite_todo_bot.py:341-372 | whitespace before a command changes nothing: `handle_all_commands` routes on the stripped text and the handlers' `split()` skips it |
| Dispatch.Settle | lite_todo_bot.py:370-372 | a store error from a handler is caught: the table stays as it was and the reply is "something wrong."; a handler's result passes through unchanged |
| Dispatch.HandleAllCommands | lite_todo_bot.py:341-372 | every reply is one the route allows, and listings, help, hints, errors and the already-completed reply leave the table unchanged |
| Dispatch.HandleKeepsValid | lite_todo_bot.py:341-372 | every message keeps ids positive, unique and increasing and the status consistent with the completion time |
| Dispatch.HandleKeepsChronology | lite_todo_bot.py:341-372 | every message handled at a later clock reading keeps created ≤ completed ≤ updated ≤ now |
| Dispatch.HandleEvolves | lite_todo_bot.py:341-372 | a message never removes or renumbers rows, changes only the sender's rows, adds only rows of the sender, and never reopens or re-stamps a completed task |
| Dispatch.HandleShowsOwnRows | lite_todo_bot.py:341-372 | every card in a reply shows one of the sender's tasks as the table stands after the message |
| Dispatch.OthersLeaveListingAlone | lite_todo_bot.py:341-372 | another user's message leaves a user's listings exactly as they were |
| Dispatch.RunKeepsValid | lite_todo_bot.py:341-372 | the table invariant holds after any sequence of messages |
| Dispatch.RunLeavesOthersAlone | lite_todo_bot.py:341-372 | no sequence of other users' messages changes a user's listings |
| Dispatch.CompleteLine | lite_todo_bot.py:343-367 | `/complete N` from a sender reaches the completion of the sender's task N |
| Dispatch.EditLine | lite_todo_bot.py:343-367 | `/edit N x` from a sender reaches the edit of the sender's task N with text x |
| Dispatch.NoteLine | lite_todo_bot.py:343-367 | `/note N x` from a sender reaches the note x on the sender's task N |
| Dispatch.AddLine | lite_todo_bot.py:296-312 | `/add x` appends an open row of the sender holding text x under an id above the previous counter, keeps every earlier row, and shows it on a card with text x |
| Dispatch.CompleteByIdTwice | lite_todo_bot.py:315-338 | completing an open task marks it done at the first time; completing it again gets the already-completed reply, changes nothing and still shows the first completion time |
| Dispatch.CompleteOnce | lite_todo_bot.py:315-338 | the first `/complete N` of an open task completes it now; a repeat gets the already-completed reply and changes nothing; the task then appears in the done listing with the first completion time and not in the open one |
| Dispatch.AddThenComplete | lite_todo_bot.py:296-338 | the number an added task is shown with is the number that completes it |
| Dispatch.EditOfUnownedTask | lite_todo_bot.py:270-293 | editing a number the sender does not own leaves the table unchanged, with the invalid-id reply or, outside 64 bits, the catch-all |
| Dispatch.NoteByIdTwice | lite_todo_bot.py:244-267 | after two notes on an owned task the row holds the second, updated at the second time, its text untouched, and the second reply reports the first note as the old one |
| Dispatch.NoteTwice | lite_todo_bot.py:244-267 | after two notes on a task the later one stands, updated at the second message, the text untouched, and the second reply reports the first note as the old one |

## Left out

- Telegram transport: polling, `reply_to`, the command registration and its
  pre-filter on command words, the bot menu (`set_bot_commands`), and the
  separate `/start` and `/help` handler registered before the dispatcher.
  Replies are modelled by kind and by the cards they carry, not as the
  formatted Chinese text.
- `send_welcome`: its text is fixed; the model has only the `Welcome` reply.
- The `sqlite3` plumbing: connections, commits, the file under `DATA_DIR`,
  and row-to-object conversion (`from_row`). Each handler's statement is
  treated as committed in full or not at all.
- Storage errors: the only `sqlite3` failures modelled are the exhausted
  AUTOINCREMENT counter and a task number outside 64 bits. A locked
  database, a disk I/O error or a missing `DATA_DIR` would raise inside any
  handler, listings included, and get the catch-all "something wrong."
  reply; `Dispatch.HandleAllCommands` promises a listing on every listing
  route only because those errors are left out.
- Wall-clock reading and the `%Y-%m-%d %H:%M:%S` formatting and parsing:
  timestamps are whole seconds supplied by the caller, which is exactly the
  precision the timestamp strings keep; only the string form and the
  sub-second part of `datetime.now()` are dropped. Each message is given
  one clock reading, while the code reads `datetime.now()` separately when
  it builds an item (line 34), when it computes the elapsed time (line 54)
  and in each update (lines 165, 178, 189), so two stamps of one message
  can differ by a second in the running bot.
- The `notes` column is `NULL` after an insert; the model stores the empty
  note, which `display` and the reply treat the same way.
- User and chat ids are taken to fit a signed 64-bit integer, as Telegram's
  do; only the task number, which users type, is checked for it.
- PyInt.ParseInt: digits outside ASCII, which Python's `int` also accepts,
  are rejected by the model.
- PyInt.ParseInt: the limit of 4300 digits that CPython 3.11 and the 3.9 and
  3.10 security releases put on `int(str)` and `str(int)` is not modelled;
  the model reads longer numbers too. A Telegram message holds at most 4096
  characters, so no message can carry such a number.
- Concurrency: messages are modelled as handled one at a time. The bot is
  created with telebot's default threaded polling, so two handlers can run
  at once; `complete_task` looks the task up and updates it on separate
  connections, so two concurrent `/complete N` (a message and its edit, for
  instance) can both find the task open and both stamp a completion time.
  `Dispatch.Run`, `Dispatch.HandleEvolves` and `Dispatch.CompleteOnce` hold
  for one message after another only.
- The catch-all's `traceback.print_exc()` logging.
- Dispatch.AddThenComplete: does not state the text shown on the completion
  card; `Dispatch.AddLine` and `TaskStore.CompleteTodo` state it separately.

=== FILE: dispatch.dfy ===
/** The entry point every text message goes through: the trimmed text is
    matched against the command words in a fixed order and the first word it
    starts with picks the handler; a store error the handler does not catch
    becomes the catch-all reply. */
module Dispatch {
  import opened Wrappers
  import opened Text
  import opened PyInt
  import opened Elapsed
  import opened Todo
  import opened TaskStore
  import opened Handlers

  /** An incoming message: its sender and its text, absent for messages
      without text. */
  datatype Message = Message(sender: Sender, text: Option<string>)

  /** Where a message is sent. */
  datatype Route =
    | AddRoute | EditRoute | ListDoneRoute | ListAllRoute | ListRoute
    | CompleteRoute | NoteRoute | HelpRoute | UnknownRoute

  /** The command words, in the order the dispatcher tests them. */
  const Commands: seq<(string, Route)> := [
    ("/add", AddRoute), ("/edit", EditRoute), ("/list_done", ListDoneRoute),
    ("/list_all", ListAllRoute), ("/list", ListRoute), ("/complete", CompleteRoute),
    ("/note", NoteRoute), ("/help", HelpRoute)]

  /** The text starts with the `i`-th command word. */
  predicate Matched(text: string, i: int)
  {
    0 <= i < |Commands| && StartsWith(text, Commands[i].0)
  }

  /** The `if`/`elif` chain of `text.startswith(...)` tests: the route of the
      first command word in the table that the text starts with. */
  function RouteOf(text: string): (r: Route)
    ensures r != UnknownRoute ==>
      exists i :: Matched(text, i) && Commands[i].1 == r && forall j :: 0 <= j < i ==> !Matched(text, j)
    ensures r == UnknownRoute <==> forall i :: !Matched(text, i)
  {
    assert forall i :: Matched(text, i) ==> 0 <= i < 8;
    if StartsWith(text, "/add") then assert Matched(text, 0); AddRoute
    else if StartsWith(text, "/edit") then assert Matched(text, 1); EditRoute
    else if StartsWith(text, "/list_done") then assert Matched(text, 2); ListDoneRoute
    else if StartsWith(text, "/list_all") then assert Matched(text, 3); ListAllRoute
    else if StartsWith(text, "/list") then assert Matched(text, 4); ListRoute
    else if StartsWith(text, "/complete") then assert Matched(text, 5); CompleteRoute
    else if StartsWith(text, "/note") then assert Matched(text, 6); NoteRoute
    else if StartsWith(text, "/help") then assert Matched(text, 7); HelpRoute
    else UnknownRoute
  }

  /** Testing `/list_done` and `/list_all` before `/list` makes the order
      immaterial: the route is that of the LONGEST command word the text
      starts with (the others are not prefixes of one another). */
  lemma RouteIsLongestCommand(text: string)
    requires RouteOf(text) != UnknownRoute
    ensures exists i :: && Matched(text, i) && Commands[i].1 == RouteOf(text)
                        && forall j :: Matched(text, j) ==> |Commands[j].0| <= |Commands[i].0|
  {
    var i :| Matched(text, i) && Commands[i].1 == RouteOf(text) && forall j :: 0 <= j < i ==> !Matched(text, j);
    forall j | Matched(text, j) ensures |Commands[j].0| <= |Commands[i].0| {
      var p, q := Commands[i].0, Commands[j].0;
      assert i == 0 || i == 1 || i == 2 || i == 3 || i == 4 || i == 5 || i == 6 || i == 7;
      assert j == 0 || j == 1 || j == 2 || j == 3 || j == 4 || j == 5 || j == 6 || j == 7;
      StartsWithAt(text, p, 1);
      StartsWithAt(text, q, 1);
      if |p| > 6 && |q| > 6 {
        StartsWithAt(text, p, 6);
        StartsWithAt(text, q, 6);
      }
    }
  }

  /** A few consequences of the order: `/list_done` and `/list_all` are not
      taken for `/list`, any word merely starting with a command word is taken
      for it, and text that starts with none is unknown. */
  lemma RoutePrecedence()
    ensures RouteOf("/list_done") == ListDoneRoute && RouteOf("/list_all now") == ListAllRoute
    ensures RouteOf("/list") == ListRoute && RouteOf("/listing") == ListRoute
    ensures RouteOf("/addendum") == AddRoute && RouteOf("/helpme") == HelpRoute
    ensures RouteOf("") == UnknownRoute && RouteOf("add milk") == UnknownRoute && RouteOf("/start") == UnknownRoute
  {
    DiffersAt("/list_done", "/add", 1);
    DiffersAt("/list_done", "/edit", 1);
    assert "/list_done"[..10] == "/list_done";
    DiffersAt("/list_all now", "/add", 1);
    DiffersAt("/list_all now", "/edit", 1);
    DiffersAt("/list_all now", "/list_done", 6);
    assert "/list_all now"[..9] == "/list_all";
    DiffersAt("/list", "/add", 1);
    DiffersAt("/list", "/edit", 1);
    DiffersAt("/list", "/list_done", 5);
    DiffersAt("/list", "/list_all", 5);
    assert "/list"[..5] == "/list";
    DiffersAt("/listing", "/add", 1);
    DiffersAt("/listing", "/edit", 1);
    DiffersAt("/listing", "/list_done", 5);
    DiffersAt("/listing", "/list_all", 5);
    assert "/listing"[..5] == "/list";
    assert "/addendum"[..4] == "/add";
    DiffersAt("/helpme", "/add", 1);
    DiffersAt("/helpme", "/edit", 1);
    DiffersAt("/helpme", "/list_done", 1);
    DiffersAt("/helpme", "/list_all", 1);
    DiffersAt("/helpme", "/list", 1);
    DiffersAt("/helpme", "/complete", 1);
    DiffersAt("/helpme", "/note", 1);
    assert "/helpme"[..5] == "/help";
    forall i | 0 <= i < |Commands| ensures !Matched("add milk", i) && !Matched("/start", i) {
      DiffersAt("add milk", Commands[i].0, 0);
      DiffersAt("/start", Commands[i].0, 1);
    }
  }

  // ----------------------------------------------------------------- dispatch

  /** The text the routing looks at: the message text stripped, or empty when
      the message has none. */
  function Trimmed(m: Message): string
  {
    if m.text.Some? then Strip(m.text.value) else ""
  }

  /** The listing each listing route shows. */
  function ListingOf(r: Route): Listing
    requires r == ListDoneRoute || r == ListAllRoute || r == ListRoute
  {
    match r
    case ListDoneRoute => DoneTasks
    case ListAllRoute => AllTasks
    case ListRoute => OpenTasks
  }

  /** The catch-all `except Exception`: a store error leaves the table as it
      was (the failed statement is not committed) and gets the catch-all reply. */
  function Settle(db: Store, o: Outcome): (r: (Store, Reply))
    ensures o.Failure? ==> r == (db, SomethingWrong)
    ensures o.Success? ==> r == o.value
  {
    match o
    case Failure(_) => (db, SomethingWrong)
    case Success(v) => v
  }

  /** The replies each route can give. */
  predicate Answers(rt: Route, reply: Reply)
  {
    match rt
    case AddRoute => reply.Added? || reply == UsageHint(AddCommand) || reply == SomethingWrong
    case EditRoute => reply.Edited? || reply == InvalidId || reply == UsageHint(EditCommand) || reply == SomethingWrong
    case ListDoneRoute => (reply.Listed? || reply.NothingListed?) && reply.listing == DoneTasks
    case ListAllRoute => (reply.Listed? || reply.NothingListed?) && reply.listing == AllTasks
    case ListRoute => (reply.Listed? || reply.NothingListed?) && reply.listing == OpenTasks
    case CompleteRoute =>
      || reply.Completed? || reply.AlreadyCompleted? || reply == InvalidId
      || reply == UsageHint(CompleteCommand) || reply == SomethingWrong
    case NoteRoute => reply.Noted? || reply == InvalidId || reply == UsageHint(NoteCommand) || reply == SomethingWrong
    case HelpRoute => reply == Welcome
    case UnknownRoute => reply == UnknownCommand
  }

  /** The replies that come with no change to the table: listings, help,
      usage hints, errors and the already-completed notice. */
  predicate ReadOnly(reply: Reply)
  {
    !(reply.Added? || reply.Edited? || reply.Noted? || reply.Completed?)
  }

  /** `handle_all_commands`: route on the stripped text and run the handler,
      which reads its arguments from the message text as sent. */
  function HandleAllCommands(db: Store, m: Message, now: Time): (r: (Store, Reply))
    ensures Answers(RouteOf(Trimmed(m)), r.1)
    ensures ReadOnly(r.1) ==> r.0 == db
  {
    var raw := m.text.GetOr("");
    var s := m.sender;
    match RouteOf(Trimmed(m))
    case AddRoute => Settle(db, AddTask(db, s, raw, now))
    case EditRoute => Settle(db, EditTask(db, s, raw, now))
    case ListDoneRoute => (db, ListTasks(db, s.userId, DoneTasks, now))
    case ListAllRoute => (db, ListTasks(db, s.userId, AllTasks, now))
    case ListRoute => (db, ListTasks(db, s.userId, OpenTasks, now))
    case CompleteRoute => Settle(db, CompleteTask(db, s, raw, now))
    case NoteRoute => Settle(db, NoteTask(db, s, raw, now))
    case HelpRoute => (db, Welcome)
    case UnknownRoute => (db, UnknownCommand)
  }

  /** Whitespace typed before a command changes nothing: routing strips it
      and `split()` skips it when the handler reads its arguments. */
  lemma LeadingSpaceIgnored(db: Store, s: Sender, sp: string, line: string, now: Time)
    requires AllSpace(sp)
    ensures HandleAllCommands(db, Message(s, Some(sp + line)), now)
         == HandleAllCommands(db, Message(s, Some(line)), now)
  {
    var m, m' := Message(s, Some(sp + line)), Message(s, Some(line));
    StripSkipsLeadingSpace(sp, line);
    SplitSkipsSpace(sp, line, 1);
    SplitSkipsSpace(sp, line, 2);
    SplitSkipsSpace(sp, line, -1);
    HandlersReadOnlyArgs(db, s, sp + line, line, now);
    SameTextSameHandling(db, m, m', now);
  }

  /** Two messages of one sender whose trimmed texts agree and whose texts
      the handlers read alike are handled alike. */
  lemma SameTextSameHandling(db: Store, m: Message, m': Message, now: Time)
    requires m.sender == m'.sender && Trimmed(m) == Trimmed(m')
    requires var a, b := m.text.GetOr(""), m'.text.GetOr("");
      && AddTask(db, m.sender, a, now) == AddTask(db, m.sender, b, now)
      && EditTask(db, m.sender, a, now) == EditTask(db, m.sender, b, now)
      && NoteTask(db, m.sender, a, now) == NoteTask(db, m.sender, b, now)
      && CompleteTask(db, m.sender, a, now) == CompleteTask(db, m.sender, b, now)
    ensures HandleAllCommands(db, m, now) == HandleAllCommands(db, m', now)
  {
  }

  // --------------------------------------------------------- step invariants

  /** What one message from `userId` may do to the table: rows are never
      removed or renumbered and keep their owner, chat and creation time;
      other users' rows stay exactly as they were; new rows are the sender's;
      and a completed row stays completed with its completion time. */
  predicate Evolves(db: Store, db': Store, userId: int)
  {
    && |db.rows| <= |db'.rows| && db.lastId <= db'.lastId
    && (forall k :: 0 <= k < |db.rows| ==> SameIdentity(db.rows[k], db'.rows[k]))
    && (forall k :: 0 <= k < |db.rows| && db.rows[k].userId != userId ==> db'.rows[k] == db.rows[k])
    && (forall k :: |db.rows| <= k < |db'.rows| ==> db'.rows[k].userId == userId)
    && (forall k :: 0 <= k < |db.rows| && db.rows[k].IsCompleted() ==>
          db'.rows[k].IsCompleted() && db'.rows[k].deleteAt == db.rows[k].deleteAt)
  }

  lemma EditKeepsValid(db: Store, s: Sender, raw: string, now: Time)
    requires Valid(db)
    ensures Valid(Settle(db, EditTask(db, s, raw, now)).0)
  {
    if IdTextArgs(raw).Some? {
      var (id, task) := IdTextArgs(raw).value;
      assert EditById(db, s.userId, id, task, now).Success? ==> Valid(EditTodo(db, s.userId, id, task, now));
    }
  }

  lemma NoteKeepsValid(db: Store, s: Sender, raw: string, now: Time)
    requires Valid(db)
    ensures Valid(Settle(db, NoteTask(db, s, raw, now)).0)
  {
    if IdTextArgs(raw).Some? {
      var (id, note) := IdTextArgs(raw).value;
      assert NoteById(db, s.userId, id, note, now).Success? ==> Valid(UpdateTaskNotes(db, s.userId, id, note, now));
    }
  }

  lemma CompleteKeepsValid(db: Store, s: Sender, raw: string, now: Time)
    requires Valid(db)
    ensures Valid(Settle(db, CompleteTask(db, s, raw, now)).0)
  {
    if IdArg(raw).Some? {
      var id := IdArg(raw).value;
      assert CompleteById(db, s.userId, id, now).Success? ==> Valid(CompleteTodo(db, s.userId, id, now));
    }
  }

  /** Every message keeps the table's guarantees. */
  lemma HandleKeepsValid(db: Store, m: Message, now: Time)
    requires Valid(db)
    ensures Valid(HandleAllCommands(db, m, now).0)
  {
    var raw := m.text.GetOr("");
    match RouteOf(Trimmed(m))
    case EditRoute => EditKeepsValid(db, m.sender, raw, now);
    case NoteRoute => NoteKeepsValid(db, m.sender, raw, now);
    case CompleteRoute => CompleteKeepsValid(db, m.sender, raw, now);
    case AddRoute =>
    case ListDoneRoute =>
    case ListAllRoute =>
    case ListRoute =>
    case HelpRoute =>
    case UnknownRoute =>
  }

  lemma AddKeepsOrder(db: Store, s: Sender, raw: string, before: Time, now: Time)
    requires Chronological(db, before) && before <= now
    ensures Chronological(Settle(db, AddTask(db, s, raw, now)).0, now)
  {
    if AddArgs(raw).Some? {
      var item := NewItem(s.userId, s.fullName, s.chatId, AddArgs(raw).value, now);
      if AddTodo(db, item).Success? {
        AddKeepsChronology(db, item, before, now);
      }
    }
  }

  lemma EditKeepsOrder(db: Store, s: Sender, raw: string, before: Time, now: Time)
    requires Chronological(db, before) && before <= now
    ensures Chronological(Settle(db, EditTask(db, s, raw, now)).0, now)
  {
    if IdTextArgs(raw).Some? {
      var (id, task) := IdTextArgs(raw).value;
      UpdateKeepsChronology(db, s.userId, id, SetTask(task, now), before);
    }
  }

  lemma NoteKeepsOrder(db: Store, s: Sender, raw: string, before: Time, now: Time)
    requires Chronological(db, before) && before <= now
    ensures Chronological(Settle(db, NoteTask(db, s, raw, now)).0, now)
  {
    if IdTextArgs(raw).Some? {
      var (id, note) := IdTextArgs(raw).value;
      UpdateKeepsChronology(db, s.userId, id, SetNote(note, now), before);
    }
  }

  lemma CompleteKeepsOrder(db: Store, s: Sender, raw: string, before: Time, now: Time)
    requires Chronological(db, before) && before <= now
    ensures Chronological(Settle(db, CompleteTask(db, s, raw, now)).0, now)
  {
    if IdArg(raw).Some? {
      UpdateKeepsChronology(db, s.userId, IdArg(raw).value, MarkDone(now), before);
    }
  }

  /** A message handled at a clock reading no earlier than the last keeps
      every timestamp in order. */
  lemma HandleKeepsChronology(db: Store, m: Message, before: Time, now: Time)
    requires Chronological(db, before) && before <= now
    ensures Chronological(HandleAllCommands(db, m, now).0, now)
  {
    var raw := m.text.GetOr("");
    match RouteOf(Trimmed(m))
    case AddRoute => AddKeepsOrder(db, m.sender, raw, before, now);
    case EditRoute => EditKeepsOrder(db, m.sender, raw, before, now);
    case NoteRoute => NoteKeepsOrder(db, m.sender, raw, before, now);
    case CompleteRoute => CompleteKeepsOrder(db, m.sender, raw, before, now);
    case ListDoneRoute =>
    case ListAllRoute =>
    case ListRoute =>
    case HelpRoute =>
    case UnknownRoute =>
  }

  lemma AddEvolves(db: Store, s: Sender, raw: string, now: Time)
    ensures Evolves(db, Settle(db, AddTask(db, s, raw, now)).0, s.userId)
  {
    var r := AddTask(db, s, raw, now);
    if r.Success? && AddArgs(raw).Some? {
      var db' := r.value.0;
      assert forall k :: 0 <= k < |db.rows| ==> db'.rows[k] == db.rows[k] by {
        assert db'.rows[..|db.rows|] == db.rows;
      }
    }
  }

  /** An UPDATE of the sender's rows evolves the table, provided a
      completion does not hit a completed row. */
  lemma UpdateEvolves(db: Store, userId: int, id: int, a: Assignment)
    requires a.MarkDone? ==> forall k :: 0 <= k < |db.rows| && Targets(db.rows[k], userId, id) ==> !db.rows[k].IsCompleted()
    ensures Evolves(db, Update(db, userId, id, a), userId)
  {
  }

  lemma EditEvolves(db: Store, s: Sender, raw: string, now: Time)
    ensures Evolves(db, Settle(db, EditTask(db, s, raw, now)).0, s.userId)
  {
    if IdTextArgs(raw).Some? {
      var (id, task) := IdTextArgs(raw).value;
      var o := EditById(db, s.userId, id, task, now);
      if o.Success? && Owns(db, s.userId, id) {
        UpdateEvolves(db, s.userId, id, SetTask(task, now));
      }
    }
  }

  lemma NoteEvolves(db: Store, s: Sender, raw: string, now: Time)
    ensures Evolves(db, Settle(db, NoteTask(db, s, raw, now)).0, s.userId)
  {
    if IdTextArgs(raw).Some? {
      var (id, note) := IdTextArgs(raw).value;
      var o := NoteById(db, s.userId, id, note, now);
      if o.Success? && Owns(db, s.userId, id) {
        UpdateEvolves(db, s.userId, id, SetNote(note, now));
      }
    }
  }

  lemma CompleteEvolves(db: Store, s: Sender, raw: string, now: Time)
    requires Valid(db)
    ensures Evolves(db, Settle(db, CompleteTask(db, s, raw, now)).0, s.userId)
  {
    if IdArg(raw).Some? {
      var id := IdArg(raw).value;
      var o := CompleteById(db, s.userId, id, now);
      if o.Success? && o.value.1.Completed? {
        UpdateEvolves(db, s.userId, id, MarkDone(now));
      }
    }
  }

  /** One message evolves the table on behalf of its sender only, and never
      reopens or re-stamps a completed task. */
  lemma HandleEvolves(db: Store, m: Message, now: Time)
    requires Valid(db)
    ensures Evolves(db, HandleAllCommands(db, m, now).0, m.sender.userId)
  {
    var raw := m.text.GetOr("");
    match RouteOf(Trimmed(m))
    case AddRoute => AddEvolves(db, m.sender, raw, now);
    case EditRoute => EditEvolves(db, m.sender, raw, now);
    case NoteRoute => NoteEvolves(db, m.sender, raw, now);
    case CompleteRoute => CompleteEvolves(db, m.sender, raw, now);
    case ListDoneRoute =>
    case ListAllRoute =>
    case ListRoute =>
    case HelpRoute =>
    case UnknownRoute =>
  }

  lemma ListingOwned(db: Store, userId: int, l: Listing, now: Time)
    ensures CardsOwned(db, userId, ListTasks(db, userId, l, now), now)
  {
    var cs := ListingCards(db, userId, l, now);
    forall i | 0 <= i < |cs|
      ensures exists k :: 0 <= k < |db.rows| && db.rows[k].userId == userId && cs[i] == Display(db.rows[k], now)
    {
      var k := ListedRow(db, userId, l, now, i);
      assert db.rows[k].userId == userId;
    }
    assert CardsOf(ListTasks(db, userId, l, now)) == cs;
  }

  lemma SettleOwned(db: Store, userId: int, o: Outcome, now: Time)
    requires o.Success? ==> CardsOwned(o.value.0, userId, o.value.1, now)
    ensures CardsOwned(Settle(db, o).0, userId, Settle(db, o).1, now)
  {
    assert CardsOf(SomethingWrong) == [];
  }

  /** Every card in a reply shows one of the sender's rows as the table
      stands after the message. */
  lemma HandleShowsOwnRows(db: Store, m: Message, now: Time)
    ensures CardsOwned(HandleAllCommands(db, m, now).0, m.sender.userId, HandleAllCommands(db, m, now).1, now)
  {
    var raw := m.text.GetOr("");
    var s := m.sender;
    match RouteOf(Trimmed(m))
    case AddRoute => SettleOwned(db, s.userId, AddTask(db, s, raw, now), now);
    case EditRoute => SettleOwned(db, s.userId, EditTask(db, s, raw, now), now);
    case NoteRoute => SettleOwned(db, s.userId, NoteTask(db, s, raw, now), now);
    case CompleteRoute => SettleOwned(db, s.userId, CompleteTask(db, s, raw, now), now);
    case ListDoneRoute => ListingOwned(db, s.userId, DoneTasks, now);
    case ListAllRoute => ListingOwned(db, s.userId, AllTasks, now);
    case ListRoute => ListingOwned(db, s.userId, OpenTasks, now);
    case HelpRoute => assert CardsOf(Welcome) == [];
    case UnknownRoute => assert CardsOf(UnknownCommand) == [];
  }

  /** Other users' messages leave a user's listings exactly as they were. */
  lemma OthersLeaveListingAlone(db: Store, m: Message, now: Time, userId: int, status: Option<int>)
    requires Valid(db) && m.sender.userId != userId
    ensures GetTodosByStatus(HandleAllCommands(db, m, now).0, userId, status) == GetTodosByStatus(db, userId, status)
  {
    var db' := HandleAllCommands(db, m, now).0;
    HandleEvolves(db, m, now);
    HandleKeepsValid(db, m, now);
    var before := GetTodosByStatus(db, userId, status);
    var after := GetTodosByStatus(db', userId, status);
    forall t ensures t in after <==> t in before {
      if t in after {
        var k :| 0 <= k < |db'.rows| && db'.rows[k] == t;
        assert k < |db.rows| && db.rows[k].userId == userId;
        assert db.rows[k] == t;
      }
      if t in before {
        var k :| 0 <= k < |db.rows| && db.rows[k] == t;
        assert db'.rows[k] == t;
      }
    }
    DescendingUnique(after, before);
  }

  // ------------------------------------------------------------ many messages

  /** The table after handling the messages in order, each at its clock reading. */
  function Run(db: Store, msgs: seq<(Message, Time)>): Store
    decreases |msgs|
  {
    if |msgs| == 0 then db
    else Run(HandleAllCommands(db, msgs[0].0, msgs[0].1).0, msgs[1..])
  }

  /** The table's guarantees hold after any sequence of messages. */
  lemma {:induction false} RunKeepsValid(db: Store, msgs: seq<(Message, Time)>)
    requires Valid(db)
    ensures Valid(Run(db, msgs))
    decreases |msgs|
  {
    if |msgs| > 0 {
      HandleKeepsValid(db, msgs[0].0, msgs[0].1);
      RunKeepsValid(HandleAllCommands(db, msgs[0].0, msgs[0].1).0, msgs[1..]);
    }
  }

  /** However many messages other users send, a user's listings stay as they
      were. */
  lemma {:induction false} RunLeavesOthersAlone(db: Store, msgs: seq<(Message, Time)>, userId: int, status: Option<int>)
    requires Valid(db)
    requires forall i :: 0 <= i < |msgs| ==> msgs[i].0.sender.userId != userId
    ensures GetTodosByStatus(Run(db, msgs), userId, status) == GetTodosByStatus(db, userId, status)
    decreases |msgs|
  {
    if |msgs| > 0 {
      var db' := HandleAllCommands(db, msgs[0].0, msgs[0].1).0;
      OthersLeaveListingAlone(db, msgs[0].0, msgs[0].1, userId, status);
      HandleKeepsValid(db, msgs[0].0, msgs[0].1);
      assert forall i :: 0 <= i < |msgs[1..]| ==> msgs[1..][i] == msgs[i + 1];
      RunLeavesOthersAlone(db', msgs[1..], userId, status);
    }
  }

  // ------------------------------------------------------------ command lines

  /** A text starting with a command word other than `/list` goes to that
      word's handler. */
  lemma RouteOfCommandWord(t: string, i: int)
    requires Matched(t, i) && i != 4
    ensures RouteOf(t) == Commands[i].1
  {
    assert RouteOf(t) != UnknownRoute;
    var j :| Matched(t, j) && Commands[j].1 == RouteOf(t) && forall k :: 0 <= k < j ==> !Matched(t, k);
    assert 0 <= j < |Commands| && StartsWith(t, Commands[j].0);
    var p, q := Commands[i].0, Commands[j].0;
    assert i == 0 || i == 1 || i == 2 || i == 3 || i == 5 || i == 6 || i == 7;
    assert j == 0 || j == 1 || j == 2 || j == 3 || j == 4 || j == 5 || j == 6 || j == 7;
    StartsWithAt(t, p, 1);
    StartsWithAt(t, q, 1);
    if |p| > 6 && |q| > 6 {
      StartsWithAt(t, p, 6);
      StartsWithAt(t, q, 6);
    }
  }

  /** A text starting with `/add` goes to the add handler. */
  lemma AddRouted(t: string)
    requires StartsWith(t, "/add")
    ensures RouteOf(t) == AddRoute
  {
  }

  /** A text starting with `/edit` goes to the edit handler. */
  lemma EditRouted(t: string)
    requires StartsWith(t, "/edit")
    ensures RouteOf(t) == EditRoute
  {
    StartsWithAt(t, "/edit", 1);
    DiffersAt(t, "/add", 1);
  }

  /** A text starting with `/complete` goes to the completion handler. */
  lemma CompleteRouted(t: string)
    requires StartsWith(t, "/complete")
    ensures RouteOf(t) == CompleteRoute
  {
    StartsWithAt(t, "/complete", 1);
    DiffersAt(t, "/add", 1);
    DiffersAt(t, "/edit", 1);
    DiffersAt(t, "/list_done", 1);
    DiffersAt(t, "/list_all", 1);
    DiffersAt(t, "/list", 1);
  }

  /** A text starting with `/note` goes to the note handler. */
  lemma NoteRouted(t: string)
    requires StartsWith(t, "/note")
    ensures RouteOf(t) == NoteRoute
  {
    StartsWithAt(t, "/note", 1);
    DiffersAt(t, "/add", 1);
    DiffersAt(t, "/edit", 1);
    DiffersAt(t, "/list_done", 1);
    DiffersAt(t, "/list_all", 1);
    DiffersAt(t, "/list", 1);
    DiffersAt(t, "/complete", 1);
  }

  /** A line routed to the add handler is handled by `add_task`. */
  lemma AddVia(db: Store, s: Sender, line: string, now: Time)
    requires RouteOf(Strip(line)) == AddRoute
    ensures HandleAllCommands(db, Message(s, Some(line)), now) == Settle(db, AddTask(db, s, line, now))
  {
  }

  /** A line routed to the edit handler is handled by `edit_task`. */
  lemma EditVia(db: Store, s: Sender, line: string, now: Time)
    requires RouteOf(Strip(line)) == EditRoute
    ensures HandleAllCommands(db, Message(s, Some(line)), now) == Settle(db, EditTask(db, s, line, now))
  {
  }

  /** A line routed to the completion handler is handled by `complete_task`. */
  lemma CompleteVia(db: Store, s: Sender, line: string, now: Time)
    requires RouteOf(Strip(line)) == CompleteRoute
    ensures HandleAllCommands(db, Message(s, Some(line)), now) == Settle(db, CompleteTask(db, s, line, now))
  {
  }

  /** A line routed to the note handler is handled by `add_note_to_task`. */
  lemma NoteVia(db: Store, s: Sender, line: string, now: Time)
    requires RouteOf(Strip(line)) == NoteRoute
    ensures HandleAllCommands(db, Message(s, Some(line)), now) == Settle(db, NoteTask(db, s, line, now))
  {
  }

  /** `/add x` is routed to the add handler. */
  lemma AddLineRoute(x: string)
    ensures RouteOf(Strip("/add " + x)) == AddRoute
  {
    var line := "/add " + x;
    assert line[..4] == "/add";
    StripKeepsPrefix(line, "/add");
    AddRouted(Strip(line));
  }

  /** `/add x` reads back `x`. */
  lemma AddLineArgs(x: string)
    requires x != [] && !IsSpace(x[0])
    ensures AddArgs("/add " + x) == Some(x)
  {
    assert "/add " + x == "/add" + " " + x by {
      assert "/add " == "/add" + " ";
    }
    AddArgsOfCommandLine("/add", " ", x);
  }

  /** `/add x`, sent by `s`, adds `x` as a new open task of `s` with the next id. */
  lemma AddLine(db: Store, s: Sender, x: string, now: Time)
    requires db.lastId < MaxInt64
    requires x != [] && !IsSpace(x[0])
    ensures var (db', reply) := HandleAllCommands(db, Message(s, Some("/add " + x)), now);
      && reply.Added? && reply.card.id == db'.lastId && reply.card.task == x && !reply.card.completed
      && db'.lastId > db.lastId
      && |db'.rows| == |db.rows| + 1 && db'.rows[..|db.rows|] == db.rows
      && Targets(db'.rows[|db.rows|], s.userId, db'.lastId) && !db'.rows[|db.rows|].IsCompleted()
      && db'.rows[|db.rows|].task == x
  {
    AddLineRoute(x);
    AddLineArgs(x);
    AddVia(db, s, "/add " + x, now);
    var o := AddTask(db, s, "/add " + x, now);
    assert o.Success?;
  }

  /** `/complete N` is routed to the completion handler. */
  lemma CompleteLineRoute(n: string)
    ensures RouteOf(Strip("/complete " + n)) == CompleteRoute
  {
    var line := "/complete " + n;
    assert line[..9] == "/complete";
    StripKeepsPrefix(line, "/complete");
    CompleteRouted(Strip(line));
  }

  /** `/complete N` reads back `N`. */
  lemma CompleteLineArg(id: int)
    ensures IdArg("/complete " + IntToString(id)) == Some(id)
  {
    var n := IntToString(id);
    assert "/complete " + n == "/complete" + " " + n by {
      assert "/complete " == "/complete" + " ";
    }
    IdArgOfCommandLine("/complete", " ", id, "");
    assert "/complete" + " " + n + "" == "/complete" + " " + n;
  }

  /** `/complete N` from `s` reaches the completion of task `N` of `s`. */
  lemma CompleteLine(db: Store, s: Sender, id: int, now: Time)
    ensures HandleAllCommands(db, Message(s, Some("/complete " + IntToString(id))), now)
         == Settle(db, CompleteById(db, s.userId, id, now))
  {
    CompleteLineRoute(IntToString(id));
    CompleteLineArg(id);
    CompleteVia(db, s, "/complete " + IntToString(id), now);
  }

  /** The store-level half of completing a task twice: the first completion
      marks row `k` done, the second finds it done and changes nothing. */
  lemma CompleteByIdTwice(db: Store, u: int, id: int, k: int, first: Time, second: Time)
    requires Valid(db) && FitsInt64(id)
    requires 0 <= k < |db.rows| && Targets(db.rows[k], u, id) && !db.rows[k].IsCompleted()
    ensures var o1 := CompleteById(db, u, id, first);
      && o1.Success? && o1.value.1.Completed? && o1.value.1.card.id == id
      && o1.value.1.card.timing == CompletedAt(Some(first))
      && var db1 := o1.value.0;
      && Valid(db1) && k < |db1.rows| && Targets(db1.rows[k], u, id)
      && db1.rows[k].IsCompleted() && db1.rows[k].deleteAt == Some(first)
      && var o2 := CompleteById(db1, u, id, second);
      && o2.Success? && o2.value.1.AlreadyCompleted? && o2.value.0 == db1
      && o2.value.1.card.timing == CompletedAt(Some(first))
  {
    var o1 := CompleteById(db, u, id, first);
    assert o1.Success? && o1.value.1.Completed?;
    var db1 := o1.value.0;
    assert MarkedDone(db.rows[k], db1.rows[k], first);
    assert Targets(db1.rows[k], u, id);
    var o2 := CompleteById(db1, u, id, second);
    assert o2.Success? && o2.value.1.AlreadyCompleted?;
  }

  /** A task is completed once: the first `/complete N` of an owned open task
      completes it now, a repeat gets the already-completed reply and changes
      nothing, and from then on the task is in the done listing, showing the
      first completion time, and not in the open one. */
  lemma CompleteOnce(db: Store, s: Sender, id: int, first: Time, second: Time, later: Time)
    requires Valid(db) && FitsInt64(id)
    requires forall k :: 0 <= k < |db.rows| && Targets(db.rows[k], s.userId, id) ==> !db.rows[k].IsCompleted()
    requires Owns(db, s.userId, id)
    ensures var m := Message(s, Some("/complete " + IntToString(id)));
      var (db1, r1) := HandleAllCommands(db, m, first);
      var (db2, r2) := HandleAllCommands(db1, m, second);
      && r1.Completed? && r1.card.id == id && r1.card.timing == CompletedAt(Some(first))
      && r2.AlreadyCompleted? && db2 == db1 && r2.card.timing == CompletedAt(Some(first))
      && !Shown(db1, s.userId, OpenTasks, id, later)
      && exists c :: c in ListingCards(db1, s.userId, DoneTasks, later) && c.id == id
                     && c.timing == CompletedAt(Some(first))
  {
    var u := s.userId;
    var k :| 0 <= k < |db.rows| && Targets(db.rows[k], u, id);
    CompleteByIdTwice(db, u, id, k, first, second);
    var db1 := CompleteById(db, u, id, first).value.0;
    CompleteLine(db, s, id, first);
    CompleteLine(db1, s, id, second);
    ListingsPartition(db1, u, k, later);
    ListingShowsEveryRow(db1, u, DoneTasks, later);
    assert Selects(db1, u, DoneTasks, k);
    assert Display(db1.rows[k], later) in ListingCards(db1, u, DoneTasks, later);
  }

  /** `/edit N x` is routed to the edit handler. */
  lemma EditLineRoute(n: string, x: string)
    ensures RouteOf(Strip("/edit " + n + " " + x)) == EditRoute
  {
    var line := "/edit " + n + " " + x;
    assert line[..5] == "/edit";
    StripKeepsPrefix(line, "/edit");
    EditRouted(Strip(line));
  }

  /** `/edit N x` and `/note N x` read back `N` and `x`. */
  lemma IdTextLineArgs(w: string, id: int, x: string)
    requires w == "/edit " || w == "/note "
    requires x != [] && !IsSpace(x[0])
    ensures IdTextArgs(w + IntToString(id) + " " + x) == Some((id, x))
  {
    var cmd := w[..5];
    assert w == cmd + " ";
    IdTextArgsOfCommandLine(cmd, " ", id, " ", x);
  }

  /** `/edit N x` from `s` reaches the edit of task `N` of `s`. */
  lemma EditLine(db: Store, s: Sender, id: int, x: string, now: Time)
    requires x != [] && !IsSpace(x[0])
    ensures HandleAllCommands(db, Message(s, Some("/edit " + IntToString(id) + " " + x)), now)
         == Settle(db, EditById(db, s.userId, id, x, now))
  {
    EditLineRoute(IntToString(id), x);
    IdTextLineArgs("/edit ", id, x);
    EditVia(db, s, "/edit " + IntToString(id) + " " + x, now);
  }

  /** `/note N x` is routed to the note handler. */
  lemma NoteLineRoute(n: string, x: string)
    ensures RouteOf(Strip("/note " + n + " " + x)) == NoteRoute
  {
    var line := "/note " + n + " " + x;
    assert line[..5] == "/note";
    StripKeepsPrefix(line, "/note");
    NoteRouted(Strip(line));
  }

  /** `/note N x` from `s` reaches the note of task `N` of `s`. */
  lemma NoteLine(db: Store, s: Sender, id: int, x: string, now: Time)
    requires x != [] && !IsSpace(x[0])
    ensures HandleAllCommands(db, Message(s, Some("/note " + IntToString(id) + " " + x)), now)
         == Settle(db, NoteById(db, s.userId, id, x, now))
  {
    NoteLineRoute(IntToString(id), x);
    IdTextLineArgs("/note ", id, x);
    NoteVia(db, s, "/note " + IntToString(id) + " " + x, now);
  }

  /** Editing a task number the sender does not own changes nothing: the
      reply is the invalid-id one, or the catch-all one when the number does
      not fit a 64-bit integer. */
  lemma EditOfUnownedTask(db: Store, s: Sender, id: int, x: string, now: Time)
    requires x != [] && !IsSpace(x[0])
    requires !Owns(db, s.userId, id)
    ensures HandleAllCommands(db, Message(s, Some("/edit " + IntToString(id) + " " + x)), now)
         == (db, if FitsInt64(id) then InvalidId else SomethingWrong)
  {
    EditLine(db, s, id, x, now);
  }

  /** The store-level half of noting a task twice: row `k` ends with the
      second note, and the second reply reports the first note as the old one. */
  lemma NoteByIdTwice(db: Store, u: int, id: int, k: int, a: string, b: string, first: Time, second: Time)
    requires Valid(db) && FitsInt64(id) && b != ""
    requires 0 <= k < |db.rows| && Targets(db.rows[k], u, id)
    ensures var o1 := NoteById(db, u, id, a, first);
      && o1.Success? && o1.value.1.Noted?
      && var o2 := NoteById(o1.value.0, u, id, b, second);
      && o2.Success? && o2.value.1.Noted? && o2.value.1.oldNote == a && o2.value.1.card.note == Some(b)
      && |o2.value.0.rows| == |db.rows|
      && o2.value.0.rows[k].note == b && o2.value.0.rows[k].updatedAt == second
      && o2.value.0.rows[k].task == db.rows[k].task
  {
    var o1 := NoteById(db, u, id, a, first);
    var db1 := UpdateTaskNotes(db, u, id, a, first);
    assert NoteSet(db.rows[k], db1.rows[k], a, first);
    assert Owns(db1, u, id) by {
      assert Targets(db1.rows[k], u, id);
    }
    var o2 := NoteById(db1, u, id, b, second);
    assert NoteSet(db1.rows[k], o2.value.0.rows[k], b, second);
    var j :| 0 <= j < |db1.rows| && Targets(db1.rows[j], u, id) && o2.value.1.oldNote == db1.rows[j].note;
    TargetIsUnique(db1, u, id, k);
  }

  /** In a valid table at most one row carries a given id. */
  lemma TargetIsUnique(db: Store, u: int, id: int, k: int)
    requires Valid(db) && 0 <= k < |db.rows| && Targets(db.rows[k], u, id)
    ensures forall j :: 0 <= j < |db.rows| && Targets(db.rows[j], u, id) ==> j == k
  {
  }

  /** Notes overwrite: after `/note N a` and then `/note N b`, task `N` holds
      `b`, last updated at the second message, with its text untouched; the
      second reply shows `b` and reports `a` as the old note. */
  lemma NoteTwice(db: Store, s: Sender, id: int, a: string, b: string, first: Time, second: Time)
    requires Valid(db) && FitsInt64(id) && Owns(db, s.userId, id)
    requires a != [] && !IsSpace(a[0]) && b != [] && !IsSpace(b[0])
    ensures var (db1, r1) := HandleAllCommands(db, Message(s, Some("/note " + IntToString(id) + " " + a)), first);
      var (db2, r2) := HandleAllCommands(db1, Message(s, Some("/note " + IntToString(id) + " " + b)), second);
      && r1.Noted? && r2.Noted? && r2.oldNote == a && r2.card.note == Some(b)
      && |db2.rows| == |db.rows|
      && forall k :: 0 <= k < |db.rows| && Targets(db.rows[k], s.userId, id) ==>
           && db2.rows[k].note == b && db2.rows[k].updatedAt == second && db2.rows[k].task == db.rows[k].task
  {
    var k :| 0 <= k < |db.rows| && Targets(db.rows[k], s.userId, id);
    TargetIsUnique(db, s.userId, id, k);
    NoteByIdTwice(db, s.userId, id, k, a, b, first, second);
    var o1 := NoteById(db, s.userId, id, a, first);
    NoteLine(db, s, id, a, first);
    assert HandleAllCommands(db, Message(s, Some("/note " + IntToString(id) + " " + a)), first) == o1.value;
    var o2 := NoteById(o1.value.0, s.userId, id, b, second);
    NoteLine(o1.value.0, s, id, b, second);
    assert HandleAllCommands(o1.value.0, Message(s, Some("/note " + IntToString(id) + " " + b)), second) == o2.value;
  }

  /** The number an added task is shown with is the number that completes it. */
  lemma AddThenComplete(db: Store, s: Sender, x: string, first: Time, second: Time)
    requires Valid(db) && db.lastId < MaxInt64
    requires x != [] && !IsSpace(x[0])
    ensures var (db1, r1) := HandleAllCommands(db, Message(s, Some("/add " + x)), first);
      && r1.Added?
      && var r2 := HandleAllCommands(db1, Message(s, Some("/complete " + IntToString(r1.card.id))), second).1;
      && r2.Completed? && r2.card.id == r1.card.id
      && r2.card.timing == CompletedAt(Some(second))
  {
    var m := Message(s, Some("/add " + x));
    AddLine(db, s, x, first);
    HandleKeepsValid(db, m, first);
    var (db1, r1) := HandleAllCommands(db, m, first);
    var id := db1.lastId;
    var n := |db.rows|;
    assert Targets(db1.rows[n], s.userId, id);
    assert forall k :: 0 <= k < n ==> db1.rows[k].id < id;
    assert forall k :: 0 <= k < |db1.rows| && Targets(db1.rows[k], s.userId, id) ==> k == n;
    CompleteOnce(db1, s, id, second, second, second);
    var o := CompleteById(db1, s.userId, id, second);
    CompleteLine(db1, s, id, second);
  }
}

=== FILE: elapsed.dfy ===
/** The "time since creation" shown on an open task: the difference between
    two instants, split the way Python's `timedelta` and `divmod` split it. */
module Elapsed {

  /** An instant on the bot's clock, in whole seconds. */
  type Time = int

  const SecondsPerMinute := 60
  const SecondsPerHour := 3600
  const SecondsPerDay := 86400

  datatype Elapsed = Elapsed(days: int, hours: int, minutes: int)

  /** The number of seconds a decomposition stands for. */
  function Seconds(e: Elapsed): int
  {
    e.days * SecondsPerDay + e.hours * SecondsPerHour + e.minutes * SecondsPerMinute
  }

  /** `time_since_creation`: `timedelta.days` is the floor of the difference in
      days and `timedelta.seconds` the rest of the day, which `divmod` splits
      into hours and minutes; leftover seconds are dropped, not rounded. A
      creation time in the future gives a negative day count, as in Python. */
  function TimeSinceCreation(createdAt: Time, now: Time): (e: Elapsed)
    ensures 0 <= e.hours < 24 && 0 <= e.minutes < 60
    ensures Seconds(e) <= now - createdAt < Seconds(e) + SecondsPerMinute
    ensures now >= createdAt ==> e.days >= 0
  {
    var diff := now - createdAt;
    var rest := diff % SecondsPerDay;
    Elapsed(diff / SecondsPerDay, rest / SecondsPerHour, rest % SecondsPerHour / SecondsPerMinute)
  }

  /** The decomposition is the only one with hours below 24 and minutes below
      60 that falls short of the difference by less than a minute. */
  lemma TimeSinceCreationIsUnique(createdAt: Time, now: Time, e: Elapsed)
    requires 0 <= e.hours < 24 && 0 <= e.minutes < 60
    requires Seconds(e) <= now - createdAt < Seconds(e) + SecondsPerMinute
    ensures TimeSinceCreation(createdAt, now) == e
  {
    var diff := now - createdAt;
    var inDay := e.hours * SecondsPerHour + e.minutes * SecondsPerMinute + (diff - Seconds(e));
    assert 0 <= inDay < SecondsPerDay;
    assert diff == e.days * SecondsPerDay + inDay;
    assert diff / SecondsPerDay == e.days;
    assert diff % SecondsPerDay == inDay;
    var inHour := e.minutes * SecondsPerMinute + (diff - Seconds(e));
    assert 0 <= inHour < SecondsPerHour;
    assert inDay / SecondsPerHour == e.hours;
    assert inDay % SecondsPerHour == inHour;
    assert inHour / SecondsPerMinute == e.minutes;
  }

  /** `d` whole days and `s` further seconds read as `d` days, `s div 3600`
      hours and `(s mod 3600) div 60` minutes. */
  lemma DaysHoursMinutes(createdAt: Time, d: int, s: int)
    requires 0 <= s < SecondsPerDay
    ensures TimeSinceCreation(createdAt, createdAt + d * SecondsPerDay + s)
         == Elapsed(d, s / SecondsPerHour, s % SecondsPerHour / SecondsPerMinute)
  {
    var e := Elapsed(d, s / SecondsPerHour, s % SecondsPerHour / SecondsPerMinute);
    TimeSinceCreationIsUnique(createdAt, createdAt + d * SecondsPerDay + s, e);
  }

  /** One day, two hours, three minutes and ten seconds show as 1 / 2 / 3. */
  lemma OneDayTwoHoursThreeMinutes(createdAt: Time)
    ensures TimeSinceCreation(createdAt, createdAt + 86400 + 2 * 3600 + 3 * 60 + 10) == Elapsed(1, 2, 3)
  {
    DaysHoursMinutes(createdAt, 1, 2 * 3600 + 3 * 60 + 10);
  }
}

=== FILE: handlers.dfy ===
/** The command handlers: each reads its arguments from the message text,
    runs one query or statement against the table on behalf of the sender and
    picks the reply. */
module Handlers {
  import opened Wrappers
  import opened Text
  import opened PyInt
  import opened Elapsed
  import opened Todo
  import opened TaskStore

  /** The sender of a message: `from_user.id`, `from_user.full_name` and `chat.id`. */
  datatype Sender = Sender(userId: int, fullName: string, chatId: int)

  /** The commands that take arguments and so have a usage hint. */
  datatype Command = AddCommand | EditCommand | CompleteCommand | NoteCommand

  /** The three listings: open tasks, completed tasks, all tasks. */
  datatype Listing = OpenTasks | DoneTasks | AllTasks

  /** The replies the bot sends, by kind; cards are the task blocks shown. */
  datatype Reply =
    | Added(card: Card)
    | Edited(card: Card, oldTask: string)
    | Noted(card: Card, oldNote: string)
    | Completed(card: Card)
    | AlreadyCompleted(card: Card)
    | Listed(listing: Listing, cards: seq<Card>)
    | NothingListed(listing: Listing)
    | InvalidId
    | UsageHint(command: Command)
    | Welcome
    | UnknownCommand
    | SomethingWrong

  /** A handler's effect: the table afterwards and the reply, or the store
      error it raised without catching. */
  type Outcome = Result<(Store, Reply), StoreError>

  function CardsOf(r: Reply): seq<Card>
  {
    match r
    case Added(c) => [c]
    case Edited(c, _) => [c]
    case Noted(c, _) => [c]
    case Completed(c) => [c]
    case AlreadyCompleted(c) => [c]
    case Listed(_, cs) => cs
    case NothingListed(_) => []
    case InvalidId => []
    case UsageHint(_) => []
    case Welcome => []
    case UnknownCommand => []
    case SomethingWrong => []
  }

  /** Every card in the reply shows a row of `userId` as it stands in `db`. */
  predicate CardsOwned(db: Store, userId: int, r: Reply, now: Time)
  {
    forall i :: 0 <= i < |CardsOf(r)| ==>
      exists k :: 0 <= k < |db.rows| && db.rows[k].userId == userId && CardsOf(r)[i] == Display(db.rows[k], now)
  }

  // ---------------------------------------------------------------- arguments

  /** `text.split(maxsplit=1)[1]`: everything after the command word. */
  function AddArgs(text: string): (r: Option<string>)
    ensures r.None? <==> |Split(text, 1)| < 2
    ensures r.Some? ==> r.value == Split(text, 1)[1] && r.value != [] && !IsSpace(r.value[0])
  {
    var parts := Split(text, 1);
    if |parts| < 2 then None else Some(parts[1])
  }

  /** `parts = text.split(maxsplit=2)`, then `int(parts[1])` and `parts[2]`:
      a task number and the rest of the line. */
  function IdTextArgs(text: string): (r: Option<(int, string)>)
    ensures r.None? <==> |Split(text, 2)| < 3 || ParseInt(Split(text, 2)[1]).None?
    ensures r.Some? ==> |Split(text, 2)| == 3 && ParseInt(Split(text, 2)[1]) == Some(r.value.0)
    ensures r.Some? ==> r.value.1 == Split(text, 2)[2] && r.value.1 != [] && !IsSpace(r.value.1[0])
  {
    var parts := Split(text, 2);
    if |parts| < 2 then None
    else match ParseInt(parts[1])
      case None => None
      case Some(id) => if |parts| < 3 then None else Some((id, parts[2]))
  }

  /** `int(text.split()[1])`: the task number; further words are ignored. */
  function IdArg(text: string): (r: Option<int>)
    ensures r.None? <==> |Split(text, -1)| < 2 || ParseInt(Split(text, -1)[1]).None?
    ensures r.Some? ==> |Split(text, -1)| >= 2 && r == ParseInt(Split(text, -1)[1])
  {
    var parts := Split(text, -1);
    if |parts| < 2 then None else ParseInt(parts[1])
  }

  /** A command word alone is missing its argument for every command. */
  lemma MissingArgument(cmd: string)
    requires cmd != [] && NoSpace(cmd)
    ensures AddArgs(cmd) == None && IdTextArgs(cmd) == None && IdArg(cmd) == None
  {
    assert cmd + "" == cmd;
    SplitFirstWord(cmd, "", 1);
    SplitFirstWord(cmd, "", 2);
    SplitFirstWord(cmd, "", -1);
  }

  /** Whatever whitespace follows the command word, the add handler reads
      the rest of the line as the task text. */
  lemma AddArgsOfCommandLine(cmd: string, sp: string, x: string)
    requires cmd != [] && NoSpace(cmd)
    requires sp != [] && AllSpace(sp)
    requires x != [] && !IsSpace(x[0])
    ensures AddArgs(cmd + sp + x) == Some(x)
  {
    SplitWordThenSpace(cmd, sp, x, 1);
    SplitRemainder([], x);
    assert [] + x == x;
  }

  /** `/edit N text` and `/note N text` read back the number and the text,
      whatever whitespace separates the three. */
  lemma IdTextArgsOfCommandLine(cmd: string, sp1: string, id: int, sp2: string, x: string)
    requires cmd != [] && NoSpace(cmd)
    requires sp1 != [] && AllSpace(sp1) && sp2 != [] && AllSpace(sp2)
    requires x != [] && !IsSpace(x[0])
    ensures IdTextArgs(cmd + sp1 + IntToString(id) + sp2 + x) == Some((id, x))
  {
    IntToStringIsWord(id);
    ParseIntToString(id);
    SplitTwoWordsAndRest(cmd, sp1, IntToString(id), sp2, x);
  }

  /** `/complete N` reads back the number, whatever whitespace separates it
      from the command word and whatever words follow it. */
  lemma IdArgOfCommandLine(cmd: string, sp: string, id: int, tail: string)
    requires cmd != [] && NoSpace(cmd)
    requires sp != [] && AllSpace(sp)
    requires tail == [] || IsSpace(tail[0])
    ensures IdArg(cmd + sp + IntToString(id) + tail) == Some(id)
  {
    var n := IntToString(id);
    IntToStringIsWord(id);
    ParseIntToString(id);
    assert cmd + sp + n + tail == cmd + sp + (n + tail);
    SplitWordThenSpace(cmd, sp, n + tail, -1);
    SplitFirstWord(n, tail, -1);
  }

  /** Each handler depends on the text only through the arguments it reads. */
  lemma HandlersReadOnlyArgs(db: Store, s: Sender, a: string, b: string, now: Time)
    requires Split(a, 1) == Split(b, 1) && Split(a, 2) == Split(b, 2) && Split(a, -1) == Split(b, -1)
    ensures AddTask(db, s, a, now) == AddTask(db, s, b, now)
    ensures EditTask(db, s, a, now) == EditTask(db, s, b, now)
    ensures NoteTask(db, s, a, now) == NoteTask(db, s, b, now)
    ensures CompleteTask(db, s, a, now) == CompleteTask(db, s, b, now)
  {
    assert AddArgs(a) == AddArgs(b);
    assert IdTextArgs(a) == IdTextArgs(b);
    assert IdArg(a) == IdArg(b);
  }

  // ------------------------------------------------------------------ lookup

  /** `next((t for t in todos if t.id == task_id), None)`. */
  function FirstWithId(todos: seq<TodoItem>, id: int): (r: Option<TodoItem>)
    ensures r.Some? ==> r.value in todos && r.value.id == id
    ensures r.None? ==> forall t :: t in todos ==> t.id != id
    decreases |todos|
  {
    if |todos| == 0 then None
    else if todos[0].id == id then Some(todos[0])
    else FirstWithId(todos[1..], id)
  }

  /** The lookup every id-taking handler starts with: the sender's row with
      this id, if there is one. */
  function FindOwned(db: Store, userId: int, id: int): (r: Result<Option<TodoItem>, StoreError>)
    ensures r.Failure? <==> !FitsInt64(id)
    ensures r.Success? ==> (r.value.Some? <==> Owns(db, userId, id))
    ensures r.Success? && r.value.Some? ==> r.value.value in db.rows && Targets(r.value.value, userId, id)
  {
    match GetTodosByTaskId(db, userId, Some(id))
    case Failure(e) => Failure(e)
    case Success(todos) =>
      var r := FirstWithId(todos, id);
      assert Owns(db, userId, id) ==> r.Some? by {
        if Owns(db, userId, id) {
          var k :| 0 <= k < |db.rows| && Targets(db.rows[k], userId, id);
          assert db.rows[k] in todos;
        }
      }
      Success(r)
  }

  lemma RowIndex(db: Store, t: TodoItem) returns (k: int)
    requires t in db.rows
    ensures 0 <= k < |db.rows| && db.rows[k] == t
  {
    k :| 0 <= k < |db.rows| && db.rows[k] == t;
  }

  // ---------------------------------------------------------------- handlers

  /** `add_task`: the text after the command becomes a new open task of the
      sender; with no text, the add usage hint. Running out of ids raises. */
  function AddTask(db: Store, s: Sender, text: string, now: Time): (r: Outcome)
    ensures AddArgs(text).None? ==> r == Success((db, UsageHint(AddCommand)))
    ensures AddArgs(text).Some? ==> (r.Failure? <==> db.lastId >= MaxInt64)
    ensures r.Success? && AddArgs(text).Some? ==>
      var (db', reply) := r.value;
      && reply.Added?
      && |db'.rows| == |db.rows| + 1 && db'.rows[..|db.rows|] == db.rows
      && var row := db'.rows[|db.rows|];
         && row.id == db'.lastId && row.id > db.lastId && reply.card.id == row.id
         && row.userId == s.userId && row.userName == s.fullName && row.chatId == s.chatId
         && row.task == AddArgs(text).value && row.status == 0 && row.note == ""
         && row.createdAt == now && row.updatedAt == now && row.deleteAt == None
    ensures r.Success? ==> CardsOwned(r.value.0, s.userId, r.value.1, now)
    ensures r.Success? && Valid(db) ==> Valid(r.value.0)
    ensures r.Success? ==> r.value.1.Added? || r.value.1 == UsageHint(AddCommand)
  {
    match AddArgs(text)
    case None =>
      assert CardsOf(UsageHint(AddCommand)) == [];
      Success((db, UsageHint(AddCommand)))
    case Some(task) =>
      var item := NewItem(s.userId, s.fullName, s.chatId, task, now);
      match AddTodo(db, item)
      case Failure(e) => Failure(e)
      case Success((db', id)) =>
        var reply := Added(Display(item.(id := id), now));
        DisplayDependsOnShownFields(item.(id := id), db'.rows[|db.rows|], now);
        assert CardsOf(reply)[0] == Display(db'.rows[|db.rows|], now);
        Success((db', reply))
  }

  /** `edit_task` once its arguments are read: the sender's task `id` gets the
      new text; an id the sender does not own gets the invalid-id reply. */
  function EditById(db: Store, userId: int, id: int, task: string, now: Time): (r: Outcome)
    ensures r.Failure? <==> !FitsInt64(id)
    ensures r.Success? && !Owns(db, userId, id) ==> r.value == (db, InvalidId)
    ensures r.Success? && Owns(db, userId, id) ==>
      r.value.0 == EditTodo(db, userId, id, task, now) && r.value.1.Edited? && r.value.1.card.task == task
    ensures r.Success? ==> r.value.1.Edited? || r.value.1 == InvalidId
    ensures r.Success? && r.value.1.Edited? ==> r.value.1.card.id == id
    ensures r.Success? && r.value.1.Edited? ==>
      exists k :: 0 <= k < |db.rows| && Targets(db.rows[k], userId, id) && r.value.1.oldTask == db.rows[k].task
    ensures r.Success? ==> CardsOwned(r.value.0, userId, r.value.1, now)
  {
    match FindOwned(db, userId, id)
    case Failure(e) => Failure(e)
    case Success(None) =>
      assert CardsOf(InvalidId) == [];
      Success((db, InvalidId))
    case Success(Some(todo)) =>
      var edited := todo.(task := task);
      var db' := EditTodo(db, userId, id, task, now);
      var reply := Edited(Display(edited, now), todo.task);
      assert CardsOwned(db', userId, reply, now) by {
        var k := RowIndex(db, todo);
        DisplayDependsOnShownFields(edited, db'.rows[k], now);
      }
      Success((db', reply))
  }

  /** `add_note_to_task` once its arguments are read: the sender's task `id`
      gets the new note; an id the sender does not own gets the invalid-id reply. */
  function NoteById(db: Store, userId: int, id: int, note: string, now: Time): (r: Outcome)
    ensures r.Failure? <==> !FitsInt64(id)
    ensures r.Success? && !Owns(db, userId, id) ==> r.value == (db, InvalidId)
    ensures r.Success? && Owns(db, userId, id) ==>
      && r.value.0 == UpdateTaskNotes(db, userId, id, note, now) && r.value.1.Noted?
      && r.value.1.card.note == (if note == "" then None else Some(note))
    ensures r.Success? ==> r.value.1.Noted? || r.value.1 == InvalidId
    ensures r.Success? && r.value.1.Noted? ==> r.value.1.card.id == id
    ensures r.Success? && r.value.1.Noted? ==>
      exists k :: 0 <= k < |db.rows| && Targets(db.rows[k], userId, id) && r.value.1.oldNote == db.rows[k].note
    ensures r.Success? ==> CardsOwned(r.value.0, userId, r.value.1, now)
  {
    match FindOwned(db, userId, id)
    case Failure(e) => Failure(e)
    case Success(None) =>
      assert CardsOf(InvalidId) == [];
      Success((db, InvalidId))
    case Success(Some(todo)) =>
      var noted := todo.(note := note);
      var db' := UpdateTaskNotes(db, userId, id, note, now);
      var reply := Noted(Display(noted, now), todo.note);
      assert CardsOwned(db', userId, reply, now) by {
        var k := RowIndex(db, todo);
        DisplayDependsOnShownFields(noted, db'.rows[k], now);
      }
      Success((db', reply))
  }

  /** `complete_task` once its argument is read: an open task of the sender is
      marked completed now; one already completed is left as it is and gets
      its own reply; an id the sender does not own gets the invalid-id reply. */
  function CompleteById(db: Store, userId: int, id: int, now: Time): (r: Outcome)
    ensures r.Failure? <==> !FitsInt64(id)
    ensures r.Success? && !Owns(db, userId, id) ==> r.value == (db, InvalidId)
    ensures r.Success? && Owns(db, userId, id) ==> r.value.1.AlreadyCompleted? || r.value.1.Completed?
    ensures r.Success? ==> r.value.1.AlreadyCompleted? || r.value.1.Completed? || r.value.1 == InvalidId
    ensures r.Success? && (r.value.1.AlreadyCompleted? || r.value.1.Completed?) ==> r.value.1.card.id == id
    ensures r.Success? && r.value.1.AlreadyCompleted? ==> r.value.0 == db
    ensures r.Success? && r.value.1.Completed? ==>
      r.value.0 == CompleteTodo(db, userId, id, now) && r.value.1.card.timing == CompletedAt(Some(now))
    ensures r.Success? && Valid(db) ==> forall k :: 0 <= k < |db.rows| && Targets(db.rows[k], userId, id) ==>
      (r.value.1.AlreadyCompleted? <==> db.rows[k].IsCompleted())
    ensures r.Success? ==> CardsOwned(r.value.0, userId, r.value.1, now)
  {
    match FindOwned(db, userId, id)
    case Failure(e) => Failure(e)
    case Success(None) =>
      assert CardsOf(InvalidId) == [];
      Success((db, InvalidId))
    case Success(Some(todo)) =>
      if todo.status == 1 then
        var reply := AlreadyCompleted(Display(todo, now));
        assert CardsOwned(db, userId, reply, now) by {
          var k := RowIndex(db, todo);
        }
        Success((db, reply))
      else
        var done := todo.(status := 1, deleteAt := Some(now));
        var db' := CompleteTodo(db, userId, id, now);
        var reply := Completed(Display(done, now));
        assert CardsOwned(db', userId, reply, now) by {
          var k := RowIndex(db, todo);
          DisplayDependsOnShownFields(done, db'.rows[k], now);
        }
        Success((db', reply))
  }

  /** `edit_task`: `/edit N text`; malformed arguments get the edit usage hint. */
  function EditTask(db: Store, s: Sender, text: string, now: Time): (r: Outcome)
    ensures IdTextArgs(text).None? ==> r == Success((db, UsageHint(EditCommand)))
    ensures IdTextArgs(text).Some? ==> r == EditById(db, s.userId, IdTextArgs(text).value.0, IdTextArgs(text).value.1, now)
    ensures r.Success? ==> CardsOwned(r.value.0, s.userId, r.value.1, now)
  {
    match IdTextArgs(text)
    case None =>
      assert CardsOf(UsageHint(EditCommand)) == [];
      Success((db, UsageHint(EditCommand)))
    case Some((id, task)) => EditById(db, s.userId, id, task, now)
  }

  /** `add_note_to_task`: `/note N text`; malformed arguments get the note usage hint. */
  function NoteTask(db: Store, s: Sender, text: string, now: Time): (r: Outcome)
    ensures IdTextArgs(text).None? ==> r == Success((db, UsageHint(NoteCommand)))
    ensures IdTextArgs(text).Some? ==> r == NoteById(db, s.userId, IdTextArgs(text).value.0, IdTextArgs(text).value.1, now)
    ensures r.Success? ==> CardsOwned(r.value.0, s.userId, r.value.1, now)
  {
    match IdTextArgs(text)
    case None =>
      assert CardsOf(UsageHint(NoteCommand)) == [];
      Success((db, UsageHint(NoteCommand)))
    case Some((id, note)) => NoteById(db, s.userId, id, note, now)
  }

  /** `complete_task`: `/complete N`; a missing or non-integer number gets the
      complete usage hint. */
  function CompleteTask(db: Store, s: Sender, text: string, now: Time): (r: Outcome)
    ensures IdArg(text).None? ==> r == Success((db, UsageHint(CompleteCommand)))
    ensures IdArg(text).Some? ==> r == CompleteById(db, s.userId, IdArg(text).value, now)
    ensures r.Success? ==> CardsOwned(r.value.0, s.userId, r.value.1, now)
  {
    match IdArg(text)
    case None =>
      assert CardsOf(UsageHint(CompleteCommand)) == [];
      Success((db, UsageHint(CompleteCommand)))
    case Some(id) => CompleteById(db, s.userId, id, now)
  }

  /** The status filter of each listing. */
  function StatusFilter(l: Listing): Option<int>
  {
    match l
    case OpenTasks => Some(0)
    case DoneTasks => Some(1)
    case AllTasks => None
  }

  predicate InListing(t: TodoItem, l: Listing)
  {
    match l
    case OpenTasks => t.status == 0
    case DoneTasks => t.status == 1
    case AllTasks => true
  }

  function Cards(ts: seq<TodoItem>, now: Time): (cs: seq<Card>)
    ensures |cs| == |ts| && forall i :: 0 <= i < |ts| ==> cs[i] == Display(ts[i], now)
  {
    seq(|ts|, i requires 0 <= i < |ts| => Display(ts[i], now))
  }

  /** The rows a listing selects: the user's rows in the listing. */
  predicate Selects(db: Store, userId: int, l: Listing, k: int)
    requires 0 <= k < |db.rows|
  {
    db.rows[k].userId == userId && InListing(db.rows[k], l)
  }

  lemma ListingSelects(db: Store, userId: int, l: Listing)
    ensures forall t :: t in GetTodosByStatus(db, userId, StatusFilter(l)) <==>
      t in db.rows && t.userId == userId && InListing(t, l)
  {
  }

  /** The cards of a listing, in the order of the query. */
  function ListingCards(db: Store, userId: int, l: Listing, now: Time): seq<Card>
  {
    Cards(GetTodosByStatus(db, userId, StatusFilter(l)), now)
  }

  lemma ListingShowsEveryRow(db: Store, userId: int, l: Listing, now: Time)
    ensures forall k :: 0 <= k < |db.rows| && Selects(db, userId, l, k) ==>
      Display(db.rows[k], now) in ListingCards(db, userId, l, now)
  {
    var todos := GetTodosByStatus(db, userId, StatusFilter(l));
    var cs := Cards(todos, now);
    ListingSelects(db, userId, l);
    forall k | 0 <= k < |db.rows| && Selects(db, userId, l, k) ensures Display(db.rows[k], now) in cs {
      assert db.rows[k] in todos;
      var i :| 0 <= i < |todos| && todos[i] == db.rows[k];
      assert cs[i] == Display(db.rows[k], now);
    }
  }

  /** The row the `i`-th card of a listing shows. */
  lemma ListedRow(db: Store, userId: int, l: Listing, now: Time, i: int) returns (k: int)
    requires 0 <= i < |ListingCards(db, userId, l, now)|
    ensures 0 <= k < |db.rows| && Selects(db, userId, l, k)
    ensures ListingCards(db, userId, l, now)[i] == Display(db.rows[k], now)
  {
    var todos := GetTodosByStatus(db, userId, StatusFilter(l));
    ListingSelects(db, userId, l);
    assert todos[i] in todos;
    k := RowIndex(db, todos[i]);
  }

  lemma ListingShowsOnlyListedRows(db: Store, userId: int, l: Listing, now: Time)
    ensures forall i :: 0 <= i < |ListingCards(db, userId, l, now)| ==>
      exists k :: 0 <= k < |db.rows| && Selects(db, userId, l, k) && ListingCards(db, userId, l, now)[i] == Display(db.rows[k], now)
  {
    var todos := GetTodosByStatus(db, userId, StatusFilter(l));
    var cs := ListingCards(db, userId, l, now);
    assert cs == Cards(todos, now);
    ListingSelects(db, userId, l);
    forall i | 0 <= i < |cs|
      ensures exists k :: 0 <= k < |db.rows| && Selects(db, userId, l, k) && cs[i] == Display(db.rows[k], now)
    {
      var k := ListedRow(db, userId, l, now, i);
    }
  }

  /** With a valid table a listing shows strictly decreasing task numbers. */
  lemma ListingIsDescending(db: Store, userId: int, l: Listing, now: Time)
    requires Valid(db)
    ensures var cs := ListingCards(db, userId, l, now);
      forall i, j :: 0 <= i < j < |cs| ==> cs[i].id > cs[j].id
  {
    var todos := GetTodosByStatus(db, userId, StatusFilter(l));
    assert IdsDescending(todos);
  }

  /** A listing has no cards exactly when the user has no row in it. */
  lemma ListingEmpty(db: Store, userId: int, l: Listing, now: Time)
    ensures ListingCards(db, userId, l, now) == [] <==> forall k :: 0 <= k < |db.rows| ==> !Selects(db, userId, l, k)
  {
    var cs := ListingCards(db, userId, l, now);
    ListingShowsEveryRow(db, userId, l, now);
    ListingShowsOnlyListedRows(db, userId, l, now);
    assert |cs| > 0 ==> cs[0] in cs;
  }

  /** `list_tasks`, `list_done_tasks` and `list_all_tasks`: the listing's
      cards, or the listing's "nothing here" reply when the sender has no
      task in it. */
  function ListTasks(db: Store, userId: int, l: Listing, now: Time): (r: Reply)
    ensures (r.Listed? || r.NothingListed?) && r.listing == l
    ensures r.NothingListed? <==> forall k :: 0 <= k < |db.rows| ==> !Selects(db, userId, l, k)
    ensures CardsOf(r) == ListingCards(db, userId, l, now)
  {
    var todos := GetTodosByStatus(db, userId, StatusFilter(l));
    ListingEmpty(db, userId, l, now);
    if |todos| == 0 then
      assert CardsOf(NothingListed(l)) == [];
      NothingListed(l)
    else Listed(l, ListingCards(db, userId, l, now))
  }

  /** Some card of the listing shows task number `id`. */
  predicate Shown(db: Store, userId: int, l: Listing, id: int, now: Time)
  {
    exists c :: c in ListingCards(db, userId, l, now) && c.id == id
  }

  /** Each of a user's tasks is in the all-tasks listing and in exactly one of
      the open and done listings, as its status says. */
  lemma ListingsPartition(db: Store, userId: int, k: int, now: Time)
    requires Valid(db) && 0 <= k < |db.rows| && db.rows[k].userId == userId
    ensures Shown(db, userId, OpenTasks, db.rows[k].id, now) <==> !db.rows[k].IsCompleted()
    ensures Shown(db, userId, DoneTasks, db.rows[k].id, now) <==> db.rows[k].IsCompleted()
    ensures Shown(db, userId, AllTasks, db.rows[k].id, now)
  {
    var id := db.rows[k].id;
    assert StatusConsistent(db.rows[k]);
    forall l ensures Shown(db, userId, l, id, now) <==> InListing(db.rows[k], l) {
      ListingShowsEveryRow(db, userId, l, now);
      ListingShowsOnlyListedRows(db, userId, l, now);
      var cs := ListingCards(db, userId, l, now);
      if InListing(db.rows[k], l) {
        assert Selects(db, userId, l, k);
        assert Display(db.rows[k], now) in cs;
      }
      if Shown(db, userId, l, id, now) {
        var c :| c in cs && c.id == id;
        var i :| 0 <= i < |cs| && cs[i] == c;
        var j :| 0 <= j < |db.rows| && Selects(db, userId, l, j) && cs[i] == Display(db.rows[j], now);
        assert db.rows[j].id == id;
        assert j == k;
      }
    }
  }
}

=== FILE: pyint.dfy ===
/** Python's conversions between `int` and `str` in base 10: `int(s)`, which
    the handlers use to read a task number, and `str(n)`, which shows one. */
module PyInt {
  import opened Wrappers
  import opened Text

  predicate IsDigit(c: char)
  {
    '0' <= c <= '9'
  }

  /** Position `i` of `s` holds a digit, or an underscore with a digit on each side. */
  predicate DigitOrJoiner(s: string, i: int)
    requires 0 <= i < |s|
  {
    IsDigit(s[i]) || (s[i] == '_' && 0 < i < |s| - 1 && IsDigit(s[i - 1]) && IsDigit(s[i + 1]))
  }

  /** What `int()` accepts after the sign: decimal digits, where a single
      underscore may stand between two digits (`1_000`). */
  predicate IsDigitGroup(s: string)
  {
    |s| > 0 && forall i :: 0 <= i < |s| ==> DigitOrJoiner(s, i)
  }

  /** A `+` or `-` followed by a digit group. */
  predicate SignedDigitGroup(s: string)
  {
    |s| > 0 && (s[0] == '+' || s[0] == '-') && IsDigitGroup(s[1..])
  }

  predicate DigitsOrUnderscores(s: string)
  {
    forall i :: 0 <= i < |s| ==> IsDigit(s[i]) || s[i] == '_'
  }

  function DigitValue(c: char): nat
    requires IsDigit(c)
  {
    c as int - '0' as int
  }

  /** The value of a run of digits and underscores, underscores ignored. */
  function DigitsValue(s: string): nat
    requires DigitsOrUnderscores(s)
    decreases |s|
  {
    if |s| == 0 then 0
    else
      var c := s[|s| - 1];
      assert IsDigit(c) || c == '_';
      if c == '_' then DigitsValue(s[..|s| - 1])
      else DigitsValue(s[..|s| - 1]) * 10 + DigitValue(c)
  }

  /** A digit group ends in a digit and holds nothing but digits and underscores. */
  lemma DigitGroupShape(s: string)
    requires IsDigitGroup(s)
    ensures DigitsOrUnderscores(s)
    ensures IsDigit(s[|s| - 1])
  {
    assert DigitOrJoiner(s, |s| - 1);
    forall i | 0 <= i < |s| ensures IsDigit(s[i]) || s[i] == '_' {
      assert DigitOrJoiner(s, i);
    }
  }

  /** U+001C..U+001F, the information separators: whitespace to `str.isspace`,
      `strip()` and `split()`, but not among the characters `int()` skips,
      which are ASCII 9-13 and 32 and the non-ASCII whitespace. */
  predicate IsInfoSeparator(c: char)
  {
    28 <= c as int <= 31
  }

  predicate NoInfoSeparator(s: string)
  {
    forall i :: 0 <= i < |s| ==> !IsInfoSeparator(s[i])
  }

  /** The whitespace `int()` skips around a number. */
  predicate AllIntSpace(s: string)
  {
    forall i :: 0 <= i < |s| ==> IsSpace(s[i]) && !IsInfoSeparator(s[i])
  }

  /** What `int()` makes of the text left once surrounding whitespace is
      skipped: one optional `+` or `-`, then a digit group. */
  function ParseStripped(t: string): (r: Option<int>)
    ensures r.Some? ==> t != [] && IsDigit(t[|t| - 1])
    ensures r.Some? ==> IsDigit(t[0]) || t[0] == '+' || t[0] == '-'
    ensures r.Some? ==> forall i :: 0 < i < |t| ==> IsDigit(t[i]) || t[i] == '_'
    ensures r.Some? && r.value < 0 ==> t[0] == '-'
    ensures r.Some? <==> IsDigitGroup(t) || SignedDigitGroup(t)
    ensures IsDigitGroup(t) ==> DigitsOrUnderscores(t) && r == Some(DigitsValue(t))
    ensures SignedDigitGroup(t) ==>
      DigitsOrUnderscores(t[1..])
      && r == Some(if t[0] == '-' then 0 - DigitsValue(t[1..]) as int else DigitsValue(t[1..]) as int)
  {
    if |t| > 0 && (t[0] == '+' || t[0] == '-') then
      var body := t[1..];
      assert !DigitOrJoiner(t, 0);
      if IsDigitGroup(body) then
        DigitGroupShape(body);
        assert forall i :: 0 < i < |t| ==> t[i] == body[i - 1];
        assert body[|body| - 1] == t[|t| - 1];
        var v: int := DigitsValue(body);
        Some(if t[0] == '-' then -v else v)
      else None
    else if IsDigitGroup(t) then
      DigitGroupShape(t);
      assert DigitOrJoiner(t, 0);
      Some(DigitsValue(t))
    else None
  }

  /** `int(s)` for a `str` in base 10: surrounding whitespace other than the
      information separators is ignored, one leading `+` or `-` is allowed,
      then a digit group. `None` stands for the `ValueError` Python raises on
      anything else, an information separator anywhere included. */
  function ParseInt(s: string): (r: Option<int>)
    ensures !NoInfoSeparator(s) ==> r == None
    ensures r.Some? ==> Strip(s) != [] && IsDigit(Strip(s)[|Strip(s)| - 1])
    ensures r.Some? ==> IsDigit(Strip(s)[0]) || Strip(s)[0] == '+' || Strip(s)[0] == '-'
    ensures r.Some? ==> forall i :: 0 < i < |Strip(s)| ==> IsDigit(Strip(s)[i]) || Strip(s)[i] == '_'
    ensures r.Some? && r.value < 0 ==> Strip(s)[0] == '-'
    ensures NoInfoSeparator(s) && IsDigitGroup(Strip(s)) ==> DigitsOrUnderscores(Strip(s)) && r == Some(DigitsValue(Strip(s)))
    ensures r.Some? <==> (NoInfoSeparator(s) && (IsDigitGroup(Strip(s)) || SignedDigitGroup(Strip(s))))
    ensures NoInfoSeparator(s) && SignedDigitGroup(Strip(s)) ==>
      DigitsOrUnderscores(Strip(s)[1..])
      && r == Some(if Strip(s)[0] == '-' then 0 - DigitsValue(Strip(s)[1..]) as int else DigitsValue(Strip(s)[1..]) as int)
  {
    if NoInfoSeparator(s) then ParseStripped(Strip(s)) else None
  }

  lemma ParsePlusFive()
    ensures ParseInt("+5") == Some(5)
  {
    assert Strip("+5") == "+5";
    assert "+5"[1..] == "5" && DigitOrJoiner("5", 0) && "5"[..0] == "";
  }

  lemma ParseLeadingZeros()
    ensures ParseInt("007") == Some(7)
  {
    assert Strip("007") == "007";
    assert DigitOrJoiner("007", 0) && DigitOrJoiner("007", 1) && DigitOrJoiner("007", 2);
    assert "007"[..2] == "00" && "00"[..1] == "0" && "0"[..0] == "";
  }

  lemma ParseUnderscore()
    ensures ParseInt("1_000") == Some(1000)
  {
    assert Strip("1_000") == "1_000";
    assert DigitOrJoiner("1_000", 0) && DigitOrJoiner("1_000", 1) && DigitOrJoiner("1_000", 2);
    assert DigitOrJoiner("1_000", 3) && DigitOrJoiner("1_000", 4);
    assert "1_000"[..4] == "1_00" && "1_00"[..3] == "1_0" && "1_0"[..2] == "1_";
    assert "1_"[..1] == "1" && "1"[..0] == "";
  }

  /** Apart from the information separators, `int()` reads only what
      `strip()` keeps. */
  lemma ParseIntOfStripped(s: string, t: string)
    requires Strip(s) == Strip(t) && NoInfoSeparator(s) && NoInfoSeparator(t)
    ensures ParseInt(s) == ParseInt(t)
  {
  }

  /** A number typed with whitespace `int()` skips around it reads back as
      that number. */
  lemma ParseIntSurrounded(a: string, n: int, b: string)
    requires AllIntSpace(a) && AllIntSpace(b)
    ensures ParseInt(a + IntToString(n) + b) == Some(n)
  {
    var s := IntToString(n);
    IntToStringIsWord(n);
    assert AllSpace(a) && AllSpace(b);
    StripSurrounding(a, s, b);
    SurroundedNoInfoSeparator(a, s, b);
    ParseIntToString(n);
    ParseIntOfStripped(a + s + b, s);
  }

  /** Whitespace `int()` skips around a word adds no information separator. */
  lemma SurroundedNoInfoSeparator(a: string, s: string, b: string)
    requires AllIntSpace(a) && NoSpace(s) && AllIntSpace(b)
    ensures NoInfoSeparator(s) && NoInfoSeparator(a + s + b)
  {
    var whole := a + s + b;
    forall i | 0 <= i < |whole| ensures !IsInfoSeparator(whole[i]) {
      if i < |a| {
        assert whole[i] == a[i];
      } else if i < |a| + |s| {
        assert whole[i] == s[i - |a|];
      } else {
        assert whole[i] == b[i - |a| - |s|];
      }
    }
  }

  /** `int()` accepts a sign, leading zeros and single underscores between
      digits. */
  lemma ParseIntAccepts()
    ensures ParseInt("+5") == Some(5) && ParseInt("007") == Some(7)
    ensures ParseInt("1_000") == Some(1000)
  {
    ParsePlusFive();
    ParseLeadingZeros();
    ParseUnderscore();
  }

  lemma RefuseLetter()
    ensures ParseInt("1a1") == None
  {
    assert Strip("1a1") == "1a1" && "1a1"[1] == 'a';
  }

  lemma RefuseDoubleUnderscore()
    ensures ParseInt("1__0") == None
  {
    assert Strip("1__0") == "1__0" && !DigitOrJoiner("1__0", 1);
  }

  lemma RefuseTrailingSign()
    ensures ParseInt("5-") == None
  {
    assert Strip("5-") == "5-" && "5-"[1] == '-';
  }

  lemma RefuseLeadingUnderscore()
    ensures ParseInt("_1") == None
  {
    assert Strip("_1") == "_1";
  }

  lemma RefuseSignAlone()
    ensures ParseInt("-") == None
  {
    assert Strip("-") == "-";
  }

  lemma RefuseInfoSeparator()
    ensures ParseInt("\U{1C}5") == None && ParseInt("5\U{1F}") == None
  {
    assert IsInfoSeparator("\U{1C}5"[0]) && IsInfoSeparator("5\U{1F}"[1]);
  }

  /** `int()` refuses a letter, a doubled or a leading underscore, a
      trailing sign, a sign alone and an information separator, although
      `strip()` would remove the separator. */
  lemma ParseIntRefuses()
    ensures ParseInt("1a1") == None && ParseInt("1__0") == None && ParseInt("5-") == None
    ensures ParseInt("_1") == None && ParseInt("-") == None
    ensures ParseInt("\U{1C}5") == None && ParseInt("5\U{1F}") == None
  {
    RefuseInfoSeparator();
    RefuseLetter();
    RefuseDoubleUnderscore();
    RefuseTrailingSign();
    RefuseLeadingUnderscore();
    RefuseSignAlone();
  }

  function DigitChar(d: nat): (c: char)
    requires d < 10
    ensures IsDigit(c)
  {
    ('0' as int + d) as char
  }

  /** `str(n)` for a natural number: its decimal digits, most significant first. */
  function NatToString(n: nat): (s: string)
    ensures s != [] && forall i :: 0 <= i < |s| ==> IsDigit(s[i])
    decreases n
  {
    if n < 10 then [DigitChar(n)] else NatToString(n / 10) + [DigitChar(n % 10)]
  }

  /** `str(n)`: a minus sign before the digits of a negative number. */
  function IntToString(n: int): (s: string)
  {
    if n < 0 then "-" + NatToString(-n) else NatToString(n)
  }

  lemma {:induction false} DigitsValueOfNatToString(n: nat)
    ensures DigitsValue(NatToString(n)) == n
    decreases n
  {
    var s := NatToString(n);
    if n >= 10 {
      DigitsValueOfNatToString(n / 10);
      assert s[..|s| - 1] == NatToString(n / 10);
    }
  }

  /** The digits of a number hold no whitespace. */
  lemma IntToStringIsWord(n: int)
    ensures IntToString(n) != [] && NoSpace(IntToString(n))
  {
    var s := IntToString(n);
    forall i | 0 <= i < |s| ensures !IsSpace(s[i]) {
      if n < 0 && i > 0 {
        assert s[i] == NatToString(-n)[i - 1];
      }
    }
  }

  /** The digits of a natural number form a digit group. */
  lemma NatToStringIsDigitGroup(n: nat)
    ensures IsDigitGroup(NatToString(n))
  {
    var s := NatToString(n);
    forall i | 0 <= i < |s| ensures DigitOrJoiner(s, i) {
    }
  }

  /** Reading back the number a task card shows gives that number again. */
  lemma ParseIntToString(n: int)
    ensures ParseInt(IntToString(n)) == Some(n)
  {
    var s := IntToString(n);
    IntToStringIsWord(n);
    assert Strip(s) == s;
    var digits := NatToString(if n < 0 then -n else n);
    NatToStringIsDigitGroup(if n < 0 then -n else n);
    DigitsValueOfNatToString(if n < 0 then -n else n);
    if n < 0 {
      assert s[1..] == digits;
      assert s[0] == '-';
    } else {
      assert s == digits;
    }
  }
}

=== FILE: store.dfy ===
/** The `todos` table behind the bot, modelled as its rows in rowid order plus
    the AUTOINCREMENT counter, with the statements the bot runs against it.
    Every statement is filtered by the owning user. */
module TaskStore {
  import opened Wrappers
  import opened Elapsed
  import opened Todo

  /** The largest rowid SQLite hands out, and the range of integers it binds. */
  const MaxInt64 := 0x7FFF_FFFF_FFFF_FFFF
  const MinInt64 := -0x8000_0000_0000_0000

  predicate FitsInt64(x: int)
  {
    MinInt64 <= x <= MaxInt64
  }

  /** The table: its rows in insertion (rowid) order, and `lastId`, the largest
      id ever handed out (SQLite's `sqlite_sequence` entry for the table). */
  datatype Store = Store(rows: seq<TodoItem>, lastId: int)

  /** Errors the driver raises: AUTOINCREMENT has run out of ids
      (`SQLITE_FULL`), or a parameter does not fit a 64-bit integer
      (`OverflowError` when binding it). */
  datatype StoreError = Full | IntegerOverflow

  /** Status 0 goes with no completion time, status 1 with one. */
  predicate StatusConsistent(t: TodoItem)
  {
    (t.status == 0 && t.deleteAt.None?) || (t.status == 1 && t.deleteAt.Some?)
  }

  predicate IdsAscending(ts: seq<TodoItem>)
  {
    forall j, k :: 0 <= j < k < |ts| ==> ts[j].id < ts[k].id
  }

  predicate IdsDescending(ts: seq<TodoItem>)
  {
    forall j, k :: 0 <= j < k < |ts| ==> ts[j].id > ts[k].id
  }

  /** What the table guarantees: ids are positive, never above the counter and
      increase with insertion order (so no id is used twice), and every row's
      completion time agrees with its status. */
  predicate Valid(db: Store)
  {
    && 0 <= db.lastId <= MaxInt64
    && (forall k :: 0 <= k < |db.rows| ==> 1 <= db.rows[k].id <= db.lastId && StatusConsistent(db.rows[k]))
    && IdsAscending(db.rows)
  }

  /** The table a fresh database starts with. */
  function EmptyStore(): (db: Store)
    ensures Valid(db) && db.rows == []
  {
    Store([], 0)
  }

  /** Timestamps never run ahead of the clock reading `now`, a row is updated
      no earlier than it was created, and completed no later than last updated. */
  predicate Chronological(db: Store, now: Time)
  {
    forall k :: 0 <= k < |db.rows| ==>
      && db.rows[k].createdAt <= db.rows[k].updatedAt <= now
      && (db.rows[k].deleteAt.Some? ==>
            db.rows[k].createdAt <= db.rows[k].deleteAt.value <= db.rows[k].updatedAt)
  }

  /** The WHERE clause `user_id = ? AND id = ?` of every UPDATE. */
  predicate Targets(t: TodoItem, userId: int, id: int)
  {
    t.userId == userId && t.id == id
  }

  /** The user owns a row with this id. */
  predicate Owns(db: Store, userId: int, id: int)
  {
    exists k :: 0 <= k < |db.rows| && Targets(db.rows[k], userId, id)
  }

  /** The rest of a SELECT's WHERE clause after `user_id = ?`: an optional
      `status = ?`, or `id = ?`. */
  datatype Where = ByStatus(status: Option<int>) | ById(id: int)

  predicate Matches(t: TodoItem, userId: int, w: Where)
  {
    && t.userId == userId
    && match w
       case ByStatus(s) => s.None? || t.status == s.value
       case ById(id) => t.id == id
  }

  /** `SELECT * ... WHERE ... ORDER BY id DESC` over rows kept in id order:
      the matching rows, last inserted first. */
  function Select(rows: seq<TodoItem>, userId: int, w: Where): (r: seq<TodoItem>)
    ensures forall t :: t in r <==> t in rows && Matches(t, userId, w)
    ensures |r| <= |rows|
    decreases |rows|
  {
    if |rows| == 0 then []
    else Select(rows[1..], userId, w) + (if Matches(rows[0], userId, w) then [rows[0]] else [])
  }

  lemma {:induction false} SelectIsDescending(rows: seq<TodoItem>, userId: int, w: Where)
    requires IdsAscending(rows)
    ensures IdsDescending(Select(rows, userId, w))
    decreases |rows|
  {
    if |rows| > 0 {
      var tail := Select(rows[1..], userId, w);
      SelectIsDescending(rows[1..], userId, w);
      forall i | 0 <= i < |tail| ensures tail[i].id > rows[0].id {
        assert tail[i] in rows[1..];
        var k :| 0 <= k < |rows[1..]| && rows[1..][k] == tail[i];
        assert rows[k + 1] == tail[i];
      }
    }
  }

  /** `get_todos_by_status`: the user's rows, only those with the given status
      when one is given, highest id first. */
  function GetTodosByStatus(db: Store, userId: int, status: Option<int>): (r: seq<TodoItem>)
    ensures forall t :: t in r <==> t in db.rows && t.userId == userId && (status.Some? ==> t.status == status.value)
    ensures Valid(db) ==> IdsDescending(r)
  {
    var r := Select(db.rows, userId, ByStatus(status));
    assert Valid(db) ==> IdsDescending(r) by {
      if Valid(db) {
        SelectIsDescending(db.rows, userId, ByStatus(status));
      }
    }
    r
  }

  /** `get_todos_by_task_id`: the user's rows with the given id (all the user's
      rows when no id is given). An id outside the 64-bit range cannot be
      bound and raises instead. */
  function GetTodosByTaskId(db: Store, userId: int, taskId: Option<int>): (r: Result<seq<TodoItem>, StoreError>)
    ensures r.Failure? <==> taskId.Some? && !FitsInt64(taskId.value)
    ensures r.Success? ==> forall t :: t in r.value <==>
      t in db.rows && t.userId == userId && (taskId.Some? ==> t.id == taskId.value)
    ensures r.Success? && Valid(db) ==> IdsDescending(r.value)
    ensures r.Success? && Valid(db) && taskId.Some? ==> forall t, t' :: t in r.value && t' in r.value ==> t == t'
  {
    match taskId
    case None => Success(GetTodosByStatus(db, userId, None))
    case Some(id) =>
      if !FitsInt64(id) then Failure(IntegerOverflow)
      else
        var r := Select(db.rows, userId, ById(id));
        assert Valid(db) ==> IdsDescending(r) by {
          if Valid(db) {
            SelectIsDescending(db.rows, userId, ById(id));
          }
        }
        assert Valid(db) ==> forall t, t' :: t in r && t' in r ==> t == t' by {
          if Valid(db) {
            forall t, t' | t in r && t' in r ensures t == t' {
              var j :| 0 <= j < |db.rows| && db.rows[j] == t;
              var k :| 0 <= k < |db.rows| && db.rows[k] == t';
            }
          }
        }
        Success(r)
  }

  /** The row the INSERT stores: owner, chat, text and timestamps from the
      item; status, notes and delete_at are not in the column list and take
      their defaults (0 and NULL). */
  function Inserted(t: TodoItem, id: int): TodoItem
  {
    TodoItem(id, t.userId, t.userName, t.chatId, t.task, 0, "", t.createdAt, t.updatedAt, None)
  }

  /** `add_todo`: insert the item under the next AUTOINCREMENT id, which
      becomes its id. */
  function AddTodo(db: Store, t: TodoItem): (r: Result<(Store, int), StoreError>)
    ensures r.Failure? <==> db.lastId >= MaxInt64
    ensures r.Success? ==>
      var (db', id) := r.value;
      && id > db.lastId && db'.lastId == id
      && |db'.rows| == |db.rows| + 1 && db'.rows[..|db.rows|] == db.rows
      && var row := db'.rows[|db.rows|];
         && row.id == id && row.userId == t.userId && row.userName == t.userName
         && row.chatId == t.chatId && row.task == t.task
         && row.createdAt == t.createdAt && row.updatedAt == t.updatedAt
         && row.status == 0 && row.note == "" && row.deleteAt == None
    ensures r.Success? && Valid(db) ==>
      Valid(r.value.0) && forall k :: 0 <= k < |db.rows| ==> db.rows[k].id < r.value.1
  {
    if db.lastId >= MaxInt64 then Failure(Full)
    else
      var id := db.lastId + 1;
      var db' := Store(db.rows + [Inserted(t, id)], id);
      assert db'.rows[..|db.rows|] == db.rows;
      Success((db', id))
  }

  /** The SET clause of the three UPDATE statements. */
  datatype Assignment = MarkDone(at: Time) | SetNote(note: string, at: Time) | SetTask(task: string, at: Time)

  function Assign(t: TodoItem, a: Assignment): TodoItem
  {
    match a
    case MarkDone(at) => t.(status := 1, deleteAt := Some(at), updatedAt := at)
    case SetNote(note, at) => t.(note := note, updatedAt := at)
    case SetTask(task, at) => t.(task := task, updatedAt := at)
  }

  /** `UPDATE todos SET ... WHERE user_id = ? AND id = ?`. */
  function Update(db: Store, userId: int, id: int, a: Assignment): (r: Store)
    ensures r.lastId == db.lastId && |r.rows| == |db.rows|
    ensures forall k :: 0 <= k < |db.rows| ==>
      r.rows[k] == if Targets(db.rows[k], userId, id) then Assign(db.rows[k], a) else db.rows[k]
  {
    db.(rows := seq(|db.rows|, k requires 0 <= k < |db.rows| =>
      if Targets(db.rows[k], userId, id) then Assign(db.rows[k], a) else db.rows[k]))
  }

  /** Number, owner, owner's name, chat and creation time agree. */
  predicate SameIdentity(a: TodoItem, b: TodoItem)
  {
    a.id == b.id && a.userId == b.userId && a.userName == b.userName && a.chatId == b.chatId && a.createdAt == b.createdAt
  }

  /** `b` is `a` completed at `now`: status 1, completion and update time
      `now`, every other field as it was. */
  predicate MarkedDone(a: TodoItem, b: TodoItem, now: Time)
  {
    && SameIdentity(a, b) && b.task == a.task && b.note == a.note
    && b.status == 1 && b.deleteAt == Some(now) && b.updatedAt == now
  }

  /** `b` is `a` with the note replaced and the update time `now`. */
  predicate NoteSet(a: TodoItem, b: TodoItem, note: string, now: Time)
  {
    && SameIdentity(a, b) && b.task == a.task && b.status == a.status && b.deleteAt == a.deleteAt
    && b.note == note && b.updatedAt == now
  }

  /** `b` is `a` with the task text replaced and the update time `now`. */
  predicate TaskSet(a: TodoItem, b: TodoItem, task: string, now: Time)
  {
    && SameIdentity(a, b) && b.note == a.note && b.status == a.status && b.deleteAt == a.deleteAt
    && b.task == task && b.updatedAt == now
  }

  /** `complete_todo`: mark the user's row with this id completed at `now`,
      whatever its status was; no other row changes. */
  function CompleteTodo(db: Store, userId: int, id: int, now: Time): (r: Store)
    ensures r.lastId == db.lastId && |r.rows| == |db.rows|
    ensures forall k :: 0 <= k < |db.rows| && !Targets(db.rows[k], userId, id) ==> r.rows[k] == db.rows[k]
    ensures forall k :: 0 <= k < |db.rows| && Targets(db.rows[k], userId, id) ==> MarkedDone(db.rows[k], r.rows[k], now)
    ensures Valid(db) ==> Valid(r)
  {
    Update(db, userId, id, MarkDone(now))
  }

  /** `update_task_notes`: replace the note of the user's row with this id;
      no other field and no other row changes. */
  function UpdateTaskNotes(db: Store, userId: int, id: int, note: string, now: Time): (r: Store)
    ensures r.lastId == db.lastId && |r.rows| == |db.rows|
    ensures forall k :: 0 <= k < |db.rows| && !Targets(db.rows[k], userId, id) ==> r.rows[k] == db.rows[k]
    ensures forall k :: 0 <= k < |db.rows| && Targets(db.rows[k], userId, id) ==> NoteSet(db.rows[k], r.rows[k], note, now)
    ensures Valid(db) ==> Valid(r)
  {
    Update(db, userId, id, SetNote(note, now))
  }

  /** `edit_todo`: replace the task text of the user's row with this id; no
      other field and no other row changes. */
  function EditTodo(db: Store, userId: int, id: int, task: string, now: Time): (r: Store)
    ensures r.lastId == db.lastId && |r.rows| == |db.rows|
    ensures forall k :: 0 <= k < |db.rows| && !Targets(db.rows[k], userId, id) ==> r.rows[k] == db.rows[k]
    ensures forall k :: 0 <= k < |db.rows| && Targets(db.rows[k], userId, id) ==> TaskSet(db.rows[k], r.rows[k], task, now)
    ensures Valid(db) ==> Valid(r)
  {
    Update(db, userId, id, SetTask(task, now))
  }

  /** The listing without a status filter holds exactly the rows of the
      status-0 and status-1 listings, and, being ordered by id, is the only
      descending arrangement of them. */
  lemma ListAllIsOrderedUnion(db: Store, userId: int, s: seq<TodoItem>)
    requires Valid(db)
    requires IdsDescending(s)
    requires forall t :: t in s <==> t in GetTodosByStatus(db, userId, Some(0)) || t in GetTodosByStatus(db, userId, Some(1))
    ensures GetTodosByStatus(db, userId, None) == s
  {
    var all := GetTodosByStatus(db, userId, None);
    forall t | t in all ensures t in s {
      var k :| 0 <= k < |db.rows| && db.rows[k] == t;
      assert StatusConsistent(db.rows[k]);
    }
    DescendingUnique(all, s);
  }

  /** In an id-descending sequence the head has the highest id and does not
      occur again. */
  lemma DescendingHead(a: seq<TodoItem>)
    requires IdsDescending(a) && a != []
    ensures forall t :: t in a ==> t == a[0] || t.id < a[0].id
    ensures forall t :: t in a[1..] <==> t in a && t != a[0]
  {
    forall t | t in a[1..] ensures t != a[0] {
      var m :| 0 <= m < |a[1..]| && a[1..][m] == t;
      assert a[m + 1] == t;
    }
    assert a == [a[0]] + a[1..];
  }

  /** Two non-empty id-descending sequences with the same elements share
      their head, and their tails are again such a pair. */
  lemma DescendingHeads(a: seq<TodoItem>, b: seq<TodoItem>)
    requires IdsDescending(a) && IdsDescending(b) && a != [] && b != []
    requires forall t :: t in a <==> t in b
    ensures a[0] == b[0]
    ensures IdsDescending(a[1..]) && IdsDescending(b[1..])
    ensures forall t :: t in a[1..] <==> t in b[1..]
  {
    DescendingHead(a);
    DescendingHead(b);
    assert a[0] in b && b[0] in a;
  }

  /** Two id-descending sequences with the same elements are equal. */
  lemma {:induction false} DescendingUnique(a: seq<TodoItem>, b: seq<TodoItem>)
    requires IdsDescending(a) && IdsDescending(b)
    requires forall t :: t in a <==> t in b
    ensures a == b
    decreases |a|
  {
    assert a != [] ==> a[0] in b;
    assert b != [] ==> b[0] in a;
    if a != [] && b != [] {
      DescendingHeads(a, b);
      DescendingUnique(a[1..], b[1..]);
      assert a == [a[0]] + a[1..] && b == [b[0]] + b[1..];
    }
  }

  /** Editing the text and setting the note of rows at the same instant
      commute: the two statements touch disjoint fields. */
  lemma EditAndNoteCommute(db: Store, u1: int, id1: int, task: string, u2: int, id2: int, note: string, now: Time)
    ensures EditTodo(UpdateTaskNotes(db, u2, id2, note, now), u1, id1, task, now)
         == UpdateTaskNotes(EditTodo(db, u1, id1, task, now), u2, id2, note, now)
  {
    var a := EditTodo(UpdateTaskNotes(db, u2, id2, note, now), u1, id1, task, now);
    var b := UpdateTaskNotes(EditTodo(db, u1, id1, task, now), u2, id2, note, now);
    assert a.rows == b.rows;
  }

  /** The store's completion is not guarded: completing again re-stamps the
      completion time, which is why the handler checks the status first. */
  lemma CompleteTodoRestamps(db: Store, userId: int, id: int, first: Time, second: Time, k: int)
    requires 0 <= k < |db.rows| && Targets(db.rows[k], userId, id)
    ensures CompleteTodo(CompleteTodo(db, userId, id, first), userId, id, second).rows[k].deleteAt == Some(second)
  {
    var once := CompleteTodo(db, userId, id, first);
    assert Targets(once.rows[k], userId, id);
  }

  /** Updates at a clock reading no earlier than the last keep timestamps in order. */
  lemma UpdateKeepsChronology(db: Store, userId: int, id: int, a: Assignment, before: Time)
    requires Chronological(db, before)
    requires before <= a.at
    ensures Chronological(Update(db, userId, id, a), a.at)
  {
  }

  lemma AddKeepsChronology(db: Store, t: TodoItem, before: Time, now: Time)
    requires Chronological(db, before)
    requires before <= now && t.createdAt == now && t.updatedAt == now
    requires AddTodo(db, t).Success?
    ensures Chronological(AddTodo(db, t).value.0, now)
  {
    var db' := AddTodo(db, t).value.0;
    assert forall k :: 0 <= k < |db.rows| ==> db'.rows[k] == db.rows[k];
  }
}

=== FILE: text.dfy ===
/** Python's text primitives the command handlers rely on: `str.isspace`,
    `str.strip`, `str.startswith` and separator-less `str.split(maxsplit=...)`. */
module Text {

  /** `str.isspace()` for one character: the whitespace set that `split()` and
      `strip()` without arguments cut on (ASCII controls 9-13 and 28-31, space,
      and the Unicode spaces and separators). */
  predicate IsSpace(c: char)
  {
    var n := c as int;
    (9 <= n <= 13) || (28 <= n <= 32) || n == 0x85 || n == 0xA0 || n == 0x1680
    || (0x2000 <= n <= 0x200A) || n == 0x2028 || n == 0x2029 || n == 0x202F
    || n == 0x205F || n == 0x3000
  }

  predicate NoSpace(s: string)
  {
    forall i :: 0 <= i < |s| ==> !IsSpace(s[i])
  }

  /** Nothing but whitespace (possibly nothing at all). */
  predicate AllSpace(s: string)
  {
    forall i :: 0 <= i < |s| ==> IsSpace(s[i])
  }

  /** `s.startswith(prefix)`. */
  predicate StartsWith(s: string, prefix: string)
  {
    |prefix| <= |s| && s[..|prefix|] == prefix
  }

  /** `s.lstrip()`: the longest all-whitespace prefix removed. */
  function LStrip(s: string): (r: string)
    ensures |r| <= |s|
    ensures forall i :: 0 <= i < |s| - |r| ==> IsSpace(s[i])
    ensures r == [] || !IsSpace(r[0])
    decreases |s|
  {
    if |s| > 0 && IsSpace(s[0]) then LStrip(s[1..]) else s
  }

  /** What `lstrip()` keeps is a suffix of its input. */
  lemma LStripIsSuffix(s: string)
    ensures LStrip(s) == s[|s| - |LStrip(s)|..]
    decreases |s|
  {
    if |s| > 0 && IsSpace(s[0]) {
      LStripIsSuffix(s[1..]);
    }
  }

  /** `s.rstrip()`: the longest all-whitespace suffix removed. */
  function RStrip(s: string): (r: string)
    ensures |r| <= |s| && r == s[..|r|]
    ensures forall i :: |r| <= i < |s| ==> IsSpace(s[i])
    ensures r == [] || !IsSpace(r[|r| - 1])
    decreases |s|
  {
    if |s| > 0 && IsSpace(s[|s| - 1]) then RStrip(s[..|s| - 1]) else s
  }

  /** `s[i..j]` is `s` with nothing but whitespace before `i` and from `j` on. */
  predicate Surrounded(s: string, i: int, j: int)
    requires 0 <= i <= j <= |s|
  {
    AllSpace(s[..i]) && AllSpace(s[j..])
  }

  /** `s.strip()`: the text between the leading and the trailing whitespace. */
  function Strip(s: string): (r: string)
    ensures r == [] || (!IsSpace(r[0]) && !IsSpace(r[|r| - 1]))
    ensures exists i, j :: 0 <= i <= j <= |s| && Surrounded(s, i, j) && r == s[i..j]
    ensures s == [] || (!IsSpace(s[0]) && !IsSpace(s[|s| - 1])) ==> r == s
  {
    StripHasBounds(s);
    RStrip(LStrip(s))
  }

  /** The bounds of what `strip()` keeps. */
  lemma StripIsInfix(s: string) returns (i: int, j: int)
    ensures 0 <= i <= j <= |s| && Surrounded(s, i, j) && RStrip(LStrip(s)) == s[i..j]
  {
    i := LStripParts(s);
    var l := s[i..];
    var n := RStripParts(l);
    j := i + n;
    assert s[i..j] == l[..n];
    assert s[j..] == l[n..];
    assert Surrounded(s, i, j);
  }

  /** What `strip()` keeps lies between whitespace. */
  lemma StripHasBounds(s: string)
    ensures exists i, j :: 0 <= i <= j <= |s| && Surrounded(s, i, j) && RStrip(LStrip(s)) == s[i..j]
  {
    var i, j := StripIsInfix(s);
  }

  /** `lstrip()` keeps `s[i..]` and removes only whitespace. */
  lemma LStripParts(s: string) returns (i: nat)
    ensures i <= |s| && LStrip(s) == s[i..] && AllSpace(s[..i])
  {
    LStripIsSuffix(s);
    i := |s| - |LStrip(s)|;
  }

  /** `rstrip()` keeps `s[..n]` and removes only whitespace. */
  lemma RStripParts(s: string) returns (n: nat)
    ensures n <= |s| && RStrip(s) == s[..n] && AllSpace(s[n..])
  {
    n := |RStrip(s)|;
  }

  /** A text of whitespace only strips to nothing. */
  lemma LStripAllSpace(s: string)
    requires AllSpace(s)
    ensures LStrip(s) == []
  {
    LStripIsSuffix(s);
  }

  /** Whitespace in front never changes what `lstrip()` keeps. */
  lemma {:induction false} LStripSkipsSpace(sp: string, s: string)
    requires AllSpace(sp)
    ensures LStrip(sp + s) == LStrip(s)
    decreases |sp|
  {
    if sp == [] {
      assert sp + s == s;
    } else {
      assert (sp + s)[0] == sp[0];
      assert (sp + s)[1..] == sp[1..] + s;
      LStripSkipsSpace(sp[1..], s);
    }
  }

  /** Whitespace behind never changes what `rstrip()` keeps. */
  lemma {:induction false} RStripSkipsSpace(s: string, sp: string)
    requires AllSpace(sp)
    ensures RStrip(s + sp) == RStrip(s)
    decreases |sp|
  {
    if sp == [] {
      assert s + sp == s;
    } else {
      var sp' := sp[..|sp| - 1];
      assert (s + sp)[|s + sp| - 1] == sp[|sp| - 1];
      assert (s + sp)[..|s + sp| - 1] == s + sp';
      RStripSkipsSpace(s, sp');
    }
  }

  /** `strip()` removes exactly the whitespace around a text that starts
      and ends with a visible character. */
  lemma StripSurrounding(a: string, x: string, b: string)
    requires AllSpace(a) && AllSpace(b)
    requires x == [] || (!IsSpace(x[0]) && !IsSpace(x[|x| - 1]))
    ensures Strip(a + x + b) == x
  {
    assert a + x + b == a + (x + b);
    LStripSkipsSpace(a, x + b);
    if x == [] {
      assert x + b == b;
      LStripAllSpace(b);
    } else {
      assert (x + b)[0] == x[0];
      RStripSkipsSpace(x, b);
    }
  }

  /** Whitespace in front of a text never changes what `strip()` keeps. */
  lemma StripSkipsLeadingSpace(sp: string, s: string)
    requires AllSpace(sp)
    ensures Strip(sp + s) == Strip(s)
  {
    LStripSkipsSpace(sp, s);
  }

  /** Length of the longest prefix of `s` that holds no whitespace. */
  function WordLength(s: string): (n: nat)
    ensures n <= |s|
    ensures NoSpace(s[..n])
    ensures n == |s| || IsSpace(s[n])
    decreases |s|
  {
    if |s| == 0 || IsSpace(s[0]) then 0 else 1 + WordLength(s[1..])
  }

  /** The limit passed on to the rest of the text once one part is cut off:
      a negative `maxsplit` means "no limit" and stays negative. */
  function NextLimit(maxsplit: int): int
  {
    if maxsplit < 0 then maxsplit else maxsplit - 1
  }

  /** `s.split(maxsplit=maxsplit)` without a separator: runs of whitespace
      separate the parts, leading and trailing whitespace yield no empty part,
      and once `maxsplit` parts are cut the rest of the text, with its leading
      whitespace removed, is the last part. */
  function Split(s: string, maxsplit: int): (parts: seq<string>)
    ensures forall i :: 0 <= i < |parts| ==> parts[i] != [] && !IsSpace(parts[i][0])
    ensures 0 <= maxsplit ==> |parts| <= maxsplit + 1
    ensures parts == [] <==> LStrip(s) == []
    decreases |s|
  {
    var t := LStrip(s);
    if t == [] then []
    else if maxsplit == 0 then [t]
    else
      var n := WordLength(t);
      [t[..n]] + Split(t[n..], NextLimit(maxsplit))
  }

  /** Every part but the last holds no whitespace, and the last neither when `all`. */
  predicate PartsAreWords(parts: seq<string>, all: bool)
  {
    forall i :: 0 <= i < |parts| && (i < |parts| - 1 || all) ==> NoSpace(parts[i])
  }

  /** Every part but the last is a single word; without a limit the last is too. */
  lemma {:induction false} SplitPartsAreWords(s: string, maxsplit: int)
    ensures PartsAreWords(Split(s, maxsplit), maxsplit < 0)
    decreases |s|
  {
    var t := LStrip(s);
    if t != [] && maxsplit != 0 {
      var n := WordLength(t);
      SplitPartsAreWords(t[n..], NextLimit(maxsplit));
      var rest := Split(t[n..], NextLimit(maxsplit));
      var parts := Split(s, maxsplit);
      assert parts == [t[..n]] + rest;
      forall i | 0 <= i < |parts| && (i < |parts| - 1 || maxsplit < 0)
        ensures NoSpace(parts[i])
      {
        if i == 0 {
          assert parts[0] == t[..n];
          assert NoSpace(t[..n]);
        } else {
          var j := i - 1;
          assert parts[i] == rest[j];
          assert 0 <= j < |rest| && (j < |rest| - 1 || NextLimit(maxsplit) < 0);
        }
      }
    }
  }

  /** Words joined by single spaces, the way a command line is typed. */
  function JoinWords(words: seq<string>): string
    decreases |words|
  {
    if |words| == 0 then ""
    else if |words| == 1 then words[0]
    else words[0] + " " + JoinWords(words[1..])
  }

  /** Leading whitespace never changes what `split` returns. */
  lemma SplitSkipsSpace(sp: string, x: string, maxsplit: int)
    requires AllSpace(sp)
    ensures Split(sp + x, maxsplit) == Split(x, maxsplit)
  {
    LStripSkipsSpace(sp, x);
  }

  /** A word followed by whitespace (or by nothing) is cut off as the first part. */
  lemma SplitFirstWord(w: string, rest: string, maxsplit: int)
    requires w != [] && NoSpace(w)
    requires rest == [] || IsSpace(rest[0])
    requires maxsplit != 0
    ensures Split(w + rest, maxsplit) == [w] + Split(rest, NextLimit(maxsplit))
  {
    var s := w + rest;
    assert s[0] == w[0];
    assert LStrip(s) == s;
    var n := WordLength(s);
    assert forall i :: 0 <= i < |w| ==> !IsSpace(s[i]);
    assert n >= |w|;
    assert |s| > |w| ==> IsSpace(s[|w|]);
    assert forall i :: 0 <= i < n ==> !IsSpace(s[i]) by {
      assert forall i :: 0 <= i < n ==> s[..n][i] == s[i];
    }
    assert n == |w|;
    assert s[..n] == w;
    assert s[n..] == rest;
  }

  /** A word and then a run of whitespace of any kind and length: the word
      is the first part and the text after the run is split for the rest. */
  lemma SplitWordThenSpace(w: string, sp: string, rest: string, maxsplit: int)
    requires w != [] && NoSpace(w)
    requires sp != [] && AllSpace(sp)
    requires maxsplit != 0
    ensures Split(w + sp + rest, maxsplit) == [w] + Split(rest, NextLimit(maxsplit))
  {
    assert w + sp + rest == w + (sp + rest);
    SplitFirstWord(w, sp + rest, maxsplit);
    SplitSkipsSpace(sp, rest, NextLimit(maxsplit));
  }

  /** Once the limit is reached, the remainder is the last part, inner and
      trailing whitespace included. */
  lemma SplitRemainder(sp: string, x: string)
    requires AllSpace(sp)
    requires x != [] && !IsSpace(x[0])
    ensures Split(sp + x, 0) == [x]
  {
    SplitSkipsSpace(sp, x, 0);
  }

  /** With a limit of two, two words and the rest of the line, whatever
      whitespace runs separate them, come apart into the two words and the
      rest. */
  lemma SplitTwoWordsAndRest(a: string, sp1: string, b: string, sp2: string, x: string)
    requires a != [] && NoSpace(a) && b != [] && NoSpace(b)
    requires sp1 != [] && AllSpace(sp1) && sp2 != [] && AllSpace(sp2)
    requires x != [] && !IsSpace(x[0])
    ensures Split(a + sp1 + b + sp2 + x, 2) == [a, b, x]
  {
    var tail := b + sp2 + x;
    assert a + sp1 + b + sp2 + x == a + sp1 + tail;
    SplitWordThenSpace(a, sp1, tail, 2);
    SplitWordThenSpace(b, sp2, x, 1);
    SplitRemainder([], x);
    assert [] + x == x;
  }

  /** Splitting without a limit undoes joining words with single spaces. */
  lemma {:induction false} SplitJoinWords(words: seq<string>)
    requires forall i :: 0 <= i < |words| ==> words[i] != [] && NoSpace(words[i])
    ensures Split(JoinWords(words), -1) == words
    decreases |words|
  {
    if |words| == 0 {
    } else if |words| == 1 {
      SplitFirstWord(words[0], "", -1);
      assert words[0] + "" == words[0];
    } else {
      var tail := JoinWords(words[1..]);
      assert JoinWords(words) == words[0] + (" " + tail);
      SplitFirstWord(words[0], " " + tail, -1);
      SplitSkipsSpace(" ", tail, -1);
      SplitJoinWords(words[1..]);
      assert words == [words[0]] + words[1..];
    }
  }

  /** `seps[0] + words[0] + seps[1] + words[1] + … + tail`: words with
      whitespace runs between, before and after them. */
  function Interleave(seps: seq<string>, words: seq<string>, tail: string): string
    requires |seps| == |words|
    decreases |words|
  {
    if words == [] then tail else seps[0] + words[0] + Interleave(seps[1..], words[1..], tail)
  }

  /** Without a limit, `split()` returns the words of a text whatever
      whitespace separates them: tabs, runs of spaces, Unicode spaces, and
      any whitespace before the first word and after the last. */
  lemma {:induction false} SplitSeparatedWords(seps: seq<string>, words: seq<string>, tail: string)
    requires |seps| == |words|
    requires forall i :: 0 <= i < |words| ==> words[i] != [] && NoSpace(words[i])
    requires forall i :: 0 <= i < |seps| ==> AllSpace(seps[i]) && (i > 0 ==> seps[i] != [])
    requires AllSpace(tail)
    ensures Split(Interleave(seps, words, tail), -1) == words
    decreases |words|
  {
    if words == [] {
      LStripAllSpace(tail);
    } else {
      var rest := Interleave(seps[1..], words[1..], tail);
      assert Interleave(seps, words, tail) == seps[0] + (words[0] + rest);
      SplitSkipsSpace(seps[0], words[0] + rest, -1);
      if words[1..] != [] {
        assert seps[1..][0] == seps[1] && seps[1] != [];
        assert rest == seps[1] + words[1] + Interleave(seps[2..], words[2..], tail) by {
          assert seps[1..][1..] == seps[2..] && words[1..][1..] == words[2..];
        }
        assert rest[0] == seps[1][0];
      }
      SplitFirstWord(words[0], rest, -1);
      SplitSeparatedWords(seps[1..], words[1..], tail);
      assert words == [words[0]] + words[1..];
    }
  }

  /** A text starting with `p` agrees with `p` at each position of `p`. */
  lemma StartsWithAt(s: string, p: string, k: int)
    requires StartsWith(s, p) && 0 <= k < |p|
    ensures s[k] == p[k]
  {
    assert s[..|p|][k] == s[k];
  }

  /** A text that differs from `p` at a position of `p` does not start with `p`. */
  lemma DiffersAt(s: string, p: string, k: int)
    requires 0 <= k < |p| && (k < |s| ==> s[k] != p[k])
    ensures !StartsWith(s, p)
  {
    assert |p| <= |s| ==> s[..|p|][k] == s[k];
  }

  /** A prefix that starts and ends with a visible character survives `strip()`. */
  lemma StripKeepsPrefix(s: string, p: string)
    requires StartsWith(s, p)
    requires p != [] && !IsSpace(p[0]) && !IsSpace(p[|p| - 1])
    ensures StartsWith(Strip(s), p)
  {
    assert s[0] == p[0];
    assert LStrip(s) == s;
    var r := RStrip(s);
    assert s[|p| - 1] == p[|p| - 1];
    assert |p| <= |r|;
    assert r[..|p|] == s[..|r|][..|p|] == s[..|p|];
  }
}

=== FILE: todo.dfy ===
/** A to-do record and the card the bot shows for it. */
module Todo {
  import opened Wrappers
  import opened Elapsed

  /** One row of the `todos` table. `note` is `""` where the column is NULL
      (a row no note was ever set on); both read as "no note". `deleteAt` is
      the completion time, absent until the task is completed. */
  datatype TodoItem = TodoItem(
    id: int,
    userId: int,
    userName: string,
    chatId: int,
    task: string,
    status: int,
    note: string,
    createdAt: Time,
    updatedAt: Time,
    deleteAt: Option<Time>)
  {
    predicate IsCompleted()
    {
      status == 1
    }
  }

  /** A fresh in-memory item as the add handler builds it: no id yet, open,
      no note, created and updated now. */
  function NewItem(userId: int, userName: string, chatId: int, task: string, now: Time): (t: TodoItem)
    ensures t.userId == userId && t.userName == userName && t.chatId == chatId && t.task == task
    ensures !t.IsCompleted() && t.note == "" && t.deleteAt == None
    ensures t.createdAt == now && t.updatedAt == now
  {
    TodoItem(0, userId, userName, chatId, task, 0, "", now, now, None)
  }

  /** The line under the status: when the task was completed, or how long ago
      it was created. */
  datatype Timing = CompletedAt(at: Option<Time>) | SinceCreation(elapsed: Elapsed)

  /** The fields of the text block `display` renders, in its order: number,
      task text, creation time, status, timing line, optional note line. */
  datatype Card = Card(id: int, task: string, createdAt: Time, completed: bool, timing: Timing, note: Option<string>)

  /** `display`: a completed task shows its completion time, an open one the
      time elapsed since creation, and the note line appears only for a
      non-empty note. */
  function Display(t: TodoItem, now: Time): (c: Card)
    ensures c.id == t.id && c.task == t.task && c.createdAt == t.createdAt
    ensures c.completed <==> t.IsCompleted()
    ensures c.timing.CompletedAt? <==> t.IsCompleted()
    ensures c.timing.CompletedAt? ==> c.timing.at == t.deleteAt
    ensures c.timing.SinceCreation? ==>
      var e := c.timing.elapsed;
      0 <= e.hours < 24 && 0 <= e.minutes < 60
      && Seconds(e) <= now - t.createdAt < Seconds(e) + SecondsPerMinute
    ensures c.note.Some? <==> t.note != ""
    ensures c.note.Some? ==> c.note.value == t.note
  {
    var timing := if t.IsCompleted() then CompletedAt(t.deleteAt) else SinceCreation(TimeSinceCreation(t.createdAt, now));
    Card(t.id, t.task, t.createdAt, t.IsCompleted(), timing, if t.note != "" then Some(t.note) else None)
  }

  /** What a card shows depends on nothing but the row's number, text, creation
      time, status, completion time and note: in particular not on `updatedAt`,
      owner or chat. */
  lemma DisplayDependsOnShownFields(a: TodoItem, b: TodoItem, now: Time)
    requires a.id == b.id && a.task == b.task && a.createdAt == b.createdAt
    requires a.status == b.status && a.deleteAt == b.deleteAt && a.note == b.note
    ensures Display(a, now) == Display(b, now)
  {
  }
}

=== FILE: wrappers.dfy ===
/** Failure-carrying datatypes shared by the model: an optional value and a
    success-or-error result. */
module Wrappers {

  datatype Option<+T> = None | Some(value: T) {

    /** The wrapped value, or `default` when there is none (Python's `x if x else default`). */
    function GetOr(default: T): T
    {
      match this
      case Some(v) => v
      case None => default
    }
  }

  /** A value, or the error an operation raised instead of producing one. */
  datatype Result<+R, +E> = Success(value: R) | Failure(error: E)
}
